=== FILE: README.md ===
# Double-battle state tracker

A Dafny model of poke-env's `DoubleBattle`: the client-side record of a Pokémon
Showdown double battle. The behaviour modelled is the one its unit tests pin down:

- a team registry keyed by side-scoped keys (`"p1: Zamazenta"`). The key is obtained
  from a slot-qualified identifier (`"p1a: Zamazenta"`) by dropping the slot letter.
  Each record holds a normalised species id, the known move ids, seven boost stages,
  and the active and fainted flags;
- two slots per side. `switch` fills a slot and the `swap` event exchanges the slots.
  A slot whose occupant has fainted, or that nobody was seen in, reads as empty;
- interpretation of a move request: the own team, the active slots, the moves each
  slot may use (`available_moves`), the switch candidates, and the per-slot flags;
- Showdown target codes in both directions: `get_possible_showdown_targets` and
  `to_showdown_target`;
- `end_illusion`: the revealed creature takes the slot of the creature it had
  impersonated.

Layout, one module per file:

- `wrappers.dfy`: `Option`, `Result` and the error values.
- `identifiers.dfy`: positions (`"p2b: Tyranitar"`), team keys (`"p2: Tyranitar"`), id
  normalisation, species from a details string, and faint conditions.
- `creatures.dfy`: the creature record, boost stages and the merging of move lists.
- `battle.dfy`: sides, slots, lookup, and the switch, swap, illusion-end, faint and
  clear-boosts transitions.
- `requests.dfy`: request interpretation.
- `targeting.dfy`: target codes.
- `events.dfy`: protocol messages (`player`, `switch`, `swap`, `faint`, illusion end,
  `turn`) applied one at a time.
- `scenarios.dfy`: each unit test replayed on the model.

Every transition is a pure function on an immutable `Battle` value. The production
class is not part of this model. Its behaviour is reconstructed from the tests in
`unit_tests/environment/test_double_battle.py`, which fix four points:

- **Boost stages.** A boost map has seven entries: accuracy, atk, def, evasion, spa, spd
  and spe. The test at lines 64-96 sets and clears all seven.
- **Illusion end keeps both records.** The revealed creature is registered if it was
  unknown, and the stand-in's record is kept, on the bench. The test at lines 160-166
  ends an illusion for a Zoroark never seen before and then reads `team["p2: Celebi"]`.
  So the event neither fails for lack of a known record nor drops the stand-in.
- **Target codes are absolute.** -1 and -2 are the own slots a and b, and 1 and 2 the
  opponent's. The user in slot a sees its ally in slot b as -2 (lines 122 and 144).
- **The request does not move creatures.** For each active entry i of a request, team
  member i fills own slot i only when that slot is empty. In the last test (lines
  262-279) Milotic stays in slot a although the request lists Cresselia first.

Design decisions:

- **Identifiers are structured.** A team key is the pair `Key(player, name)`. The
  string forms are produced and read by `FormatKey`/`ParseKey` and
  `FormatPosition`/`ParsePosition`, with round-trip lemmas both ways.
- **A creature stands in one slot.** No side ever holds the same creature in both
  slots. A `switch` into one slot takes the creature out of the other slot if it stood
  there. A request entry is not seated in a slot while its creature stands in the other
  one.
- **A displaced creature is benched.** The creature a `switch` or illusion end pushes
  out of its slot is no longer active and has every stage back at 0.
- **Only shown creatures are targets.** A slot whose occupant has fainted reads as
  empty, both for `get_possible_showdown_targets` and for `to_showdown_target`.
- **Options belong to request entries.** The moves and flags of slot i come from request
  entry i. A fainted or absent entry offers no move and none of its own flags; the
  request's force-switch flag for slot i and the switch list still apply.
- **Target kind is an input.** A move's target kind (`AnySingle`, `SelfOnly`,
  `NoChoice`) comes from the move data and is taken as an input.
- **A swap has a target slot, or none.** The `swap` event names a target slot with a
  token: "0" for a, "1" for b; any other token, such as the empty one, names none. A
  swap changes nothing when a slot is empty or when the named creature already sits in
  the named slot; otherwise the two slots trade places.

## Model

| member | source | states |
|---|---|---|
| Identifiers.ParseFormat | unit_tests/environment/test_double_battle.py:102-103 | reading back a rendered position ("p2a: Milotic") gives the same player, slot and name |
| Identifiers.FormatParse | unit_tests/environment/test_double_battle.py:155-160 | every accepted slot-qualified identifier is exactly the rendering of what was read from it |
| Identifiers.ParseFormatKey | unit_tests/environment/test_double_battle.py:19 | reading back a rendered team key ("p1: Zamazenta") gives the same player and name |
| Identifiers.FormatParseKey | unit_tests/environment/test_double_battle.py:161-163 | every accepted team key is exactly the rendering of what was read from it |
| Identifiers.ToId | unit_tests/environment/test_double_battle.py:13-17 | a normalised id is lower case letters and digits only and never longer than its input |
| Identifiers.ToIdFixesIds | unit_tests/environment/test_double_battle.py:13-17 | an id that is already normalised is left unchanged |
| Identifiers.ToIdIdempotent | unit_tests/environment/test_double_battle.py:13-17 | normalising twice is normalising once |
| Identifiers.ToIdAppend | unit_tests/environment/test_double_battle.py:15-17 | the id of a concatenation is the concatenation of the ids, so "Zamazenta-Crowned" gives "zamazenta" + "crowned" |
| Identifiers.ToIdChar | unit_tests/environment/test_double_battle.py:13-17 | a single character normalises to itself lower-cased when it is an ASCII letter or digit, and to nothing otherwise; with `ToIdAppend` this fixes the id of every string |
| Identifiers.BeforeComma | unit_tests/environment/test_double_battle.py:102-107 | the first field of a details string is a comma-free prefix ending at the first comma, or the whole string |
| Identifiers.SpeciesOf | unit_tests/environment/test_double_battle.py:102-107 | the species is the normalised id of the details string's first field |
| Identifiers.SpeciesOfFirstField | unit_tests/environment/test_double_battle.py:102-107 | "Name, L50, F" has the species of "Name" whatever follows the comma |
| Identifiers.SpeciesOfBareName | unit_tests/environment/test_double_battle.py:155 | details without any comma ("Celebi") name the species directly |
| Identifiers.FaintCondition | unit_tests/environment/test_double_battle.py:276-278 | a condition "hp status" reads fainted exactly when the status is `fnt` ("0 fnt"), and a bare "hp/max" such as "386/394" never does |
| Creatures.CoversAllStats | unit_tests/environment/test_double_battle.py:64-81 | a boost map with the seven named stats has an entry for every stat there is |
| Creatures.NewPokemon | unit_tests/environment/test_double_battle.py:155-158 | a creature seen for the first time has the given species, no known moves, all seven stages at 0, and is neither active nor fainted |
| Creatures.ClearBoosts | unit_tests/environment/test_double_battle.py:83-96 | clearing sets every stage to 0, keeps the same stats, and leaves the rest of the record alone |
| Creatures.ClearBoostsIsZero | unit_tests/environment/test_double_battle.py:85-96 | on a record with all seven stats, clearing yields exactly the all-zero map of the test |
| Creatures.AddMissing | unit_tests/environment/test_double_battle.py:19-27 | merging keeps the known ids as a prefix, adds exactly the missing request ids, and repeats nothing |
| Creatures.MergeMoves | unit_tests/environment/test_double_battle.py:19-27 | every request id ends up known; nothing outside the known and request ids appears; a merge that would exceed four keeps only the request's ids |
| Creatures.AddMissingDisjoint | unit_tests/environment/test_double_battle.py:19-27 | new distinct ids are appended in request order |
| Creatures.MergeMovesFresh | unit_tests/environment/test_double_battle.py:21-27 | a creature with no known moves takes a list of at most four distinct ids exactly as given |
| Battles.NewBattle | unit_tests/environment/test_double_battle.py:8 | a new battle has empty teams and slots, no role, and the opponent presumed able to dynamax in both slots |
| Battles.Visible | unit_tests/environment/test_double_battle.py:43 | a slot reads as its occupant exactly when the slot is filled by a registered creature that is active and not fainted; otherwise it reads as empty |
| Battles.ActiveView | unit_tests/environment/test_double_battle.py:35 | `active_pokemon` is the two slot readings, slot a then slot b |
| Battles.AllActivePokemons | unit_tests/environment/test_double_battle.py:36-43 | `all_active_pokemons` is the own two readings followed by the opponent's two |
| Battles.Lookup | unit_tests/environment/test_double_battle.py:46-47 | a key finds the own record if there is one, else the opponent's, else nothing |
| Battles.IdentKey | unit_tests/environment/test_double_battle.py:19 | `get_pokemon` reads a slot-qualified identifier ("p1a: Name") as the key of its position with the slot letter dropped, and any other identifier as a team key ("p1: Name"), or as nothing |
| Battles.GetPokemon | unit_tests/environment/test_double_battle.py:19 | `get_pokemon` finds a record exactly when the identifier reads as a key registered on either side |
| Battles.GetPokemonByKey | unit_tests/environment/test_double_battle.py:46-47 | looking a creature up by its rendered team key finds its record |
| Battles.GetPokemonEitherSpelling | unit_tests/environment/test_double_battle.py:155-163 | "p2a: Celebi" and "p2: Celebi" find the same record |
| Battles.Switch | unit_tests/environment/test_double_battle.py:102-107 | `switch` puts the creature's key in the named slot and takes it out of the other slot if it stood there. It registers the key with the details' species. A known creature keeps its moves and stages; a new one starts with no moves and every stage at 0. The slot reads as that creature exactly when it is not fainted. The creature pushed out of the slot is benched with every stage at 0 and is otherwise unchanged. The other slot reads as before unless it showed the entering creature. All other records and the other side are kept |
| Battles.Bench | unit_tests/environment/test_double_battle.py:160-166 | a creature sent to the bench is no longer active and has all seven stages at 0; the rest of its record and every other record are kept |
| Battles.SwapSlots | unit_tests/environment/test_double_battle.py:99-100 | a swap keeps the team and the multiset of occupants. It exchanges the slots unless a slot is empty or the creature already sits in the named slot. A named slot ends up holding the creature |
| Battles.Swap | unit_tests/environment/test_double_battle.py:99-100 | the `swap` event changes only the slots of the named creature's side |
| Battles.SwapIdempotent | unit_tests/environment/test_double_battle.py:269-271 | once the named creature stands in a slot, repeating a swap that names a slot changes nothing more |
| Battles.SwapUnnamedInvolution | unit_tests/environment/test_double_battle.py:99-100 | a swap that names no slot, applied twice, restores the side |
| Battles.SwapKeepsVisibleSet | unit_tests/environment/test_double_battle.py:98-100 | a swap changes where creatures are shown, never which ones are shown |
| Battles.EndIllusion | unit_tests/environment/test_double_battle.py:160-166 | an illusion end naming an empty slot is reported, since there is no stand-in to reveal. Otherwise the revealed creature takes the named slot and is registered. If it was known it keeps its moves, stages and fainted flag; if not, it starts with no moves and every stage at 0. The stand-in stays registered, benched with every stage at 0 and otherwise unchanged. The other slot loses the revealed creature if it stood there and is otherwise kept, and every other record is kept |
| Battles.Faint | unit_tests/environment/test_double_battle.py:278 | a faint marks a known creature fainted and changes nothing else in the team, keeps the slots, and makes it read as absent. A creature never seen is reported as unknown |
| Battles.ClearVisibleBoosts | unit_tests/environment/test_double_battle.py:83-96 | every creature shown in a slot gets all seven stages at 0; the others, the slots and the keys are kept |
| Battles.ClearVisibleKeepsView | unit_tests/environment/test_double_battle.py:98 | clearing boosts leaves `active_pokemon` as it was |
| Battles.ClearAllBoosts | unit_tests/environment/test_double_battle.py:83 | `clear_all_boosts` clears both sides and changes nothing else |
| Battles.ClearAllBoostsZeroesOwn | unit_tests/environment/test_double_battle.py:83-98 | after clearing, each own active creature has the all-zero map and the active list is unchanged |
| Requests.UsableMoves | unit_tests/environment/test_double_battle.py:276-277 | the offered moves are exactly the request moves that are enabled with pp left. When all are usable, they are offered in request order |
| Requests.UsableMovesAppend | unit_tests/environment/test_double_battle.py:276-277 | the offered moves of a concatenation are those of its first part followed by those of its second, so no move is reordered or repeated |
| Requests.UsableMovesSingle | unit_tests/environment/test_double_battle.py:276-277 | a single move is offered exactly when it is enabled and has pp left |
| Requests.UpdateRecord | unit_tests/environment/test_double_battle.py:10-27 | a record takes species, active flag and fainted flag from its entry and knows every move id the entry lists |
| Requests.KeysOf | unit_tests/environment/test_double_battle.py:11 | the request's key set holds exactly the entries' keys |
| Requests.UpdateTeam | unit_tests/environment/test_double_battle.py:10-11 | the registry gains exactly the request's keys, and records the request does not name are kept |
| Requests.UpdateTeamLast | unit_tests/environment/test_double_battle.py:13-17 | the record of a key reflects the last entry for that key |
| Requests.UpdateTeamFresh | unit_tests/environment/test_double_battle.py:49-54 | a creature first named by the request knows exactly the entry's move ids |
| Requests.UpdateTeamFreshMoves | unit_tests/environment/test_double_battle.py:19-27 | a creature first named by the request with at most four distinct move ids knows exactly that list, in order |
| Requests.KeysOfCount | unit_tests/environment/test_double_battle.py:11 | a request naming n distinct keys registers n creatures |
| Requests.PlaceActives | unit_tests/environment/test_double_battle.py:268-279 | for each active entry i, team member i fills own slot i only when that slot is empty and the creature does not stand in the other slot; a filled slot keeps its occupant |
| Requests.SlotMoves | unit_tests/environment/test_double_battle.py:276-277 | slot i offers entry i's usable moves, or none when that entry has fainted or is absent |
| Requests.SlotFlagsOf | unit_tests/environment/test_double_battle.py:57-62 | slot i carries entry i's trapped, dynamax, mega and z-move flags and the request's force-switch flag. A fainted or absent entry carries none of its own flags but keeps the request's force-switch flag |
| Requests.SwitchCandidates | unit_tests/environment/test_double_battle.py:56 | the switch candidates are exactly the request's creatures that are neither active nor fainted |
| Requests.OptionsOf | unit_tests/environment/test_double_battle.py:49-62 | options per slot: its moves, its flags, and no switch candidates when trapped |
| Requests.ParseRequest | unit_tests/environment/test_double_battle.py:10 | a well-formed request is accepted and any other is rejected. It binds the role from the first team entry, or keeps it when the request lists none, updates the own team, fills the empty own slots and recomputes the options. The opponent, the username and the turn are unchanged |
| Requests.RequestFillsEmptySlots | unit_tests/environment/test_double_battle.py:34-47 | with both own slots empty, the two active entries become `active_pokemon` in request order and are found by key |
| Requests.FlagsOfLiveEntry | unit_tests/environment/test_double_battle.py:57-62 | a live slot takes its entry's flags |
| Requests.MovesOfLiveEntry | unit_tests/environment/test_double_battle.py:277 | a live slot whose moves are all usable offers them all, in request order |
| Requests.NoMovesForFaintedEntry | unit_tests/environment/test_double_battle.py:276 | a slot whose entry has fainted offers no move |
| Requests.NewEntryShown | unit_tests/environment/test_double_battle.py:34-47 | a creature first named by an active entry, while its slot is empty, is what `active_pokemon[i]` shows after the request |
| Requests.AvailableMovesAreMoveSet | unit_tests/environment/test_double_battle.py:49-54 | when slot i was empty and the request seats in it a creature whose entry offers exactly its listed moves, `active_pokemon[i]` is that creature and `available_moves[i]` names the same moves as its record |
| Targeting.UserSlot | unit_tests/environment/test_double_battle.py:122 | the user's slot is one where it is shown; it is absent exactly when the user is not shown |
| Targeting.PossibleTargets | unit_tests/environment/test_double_battle.py:121-131 | codes are ascending. A single-target move gets the ally code when the ally slot shows a creature (not when dynamaxed) and the code of each opponent slot that shows a creature. Any other move gets [0]. A user not on the field is an error |
| Targeting.ToShowdownTarget | unit_tests/environment/test_double_battle.py:144-147 | the code names the slot where the target is shown; it is 0 for no target, a move that takes none, or a creature not on the field |
| Targeting.TargetCodeIsPossible | unit_tests/environment/test_double_battle.py:121-147 | the code of any creature on the field other than the user is among the user's possible targets |
| Targeting.PossibleTargetsAreShown | unit_tests/environment/test_double_battle.py:121-147 | the converse, when no creature is shown on both sides: every non-zero possible code names a position other than the user's that shows a creature, and `to_showdown_target` of that creature is the code |
| Events.BindPlayer | unit_tests/environment/test_double_battle.py:259-260 | the `player` message binds the own role only when it names this client's username |
| Events.SlotToken | unit_tests/environment/test_double_battle.py:270 | "0" names slot a, "1" slot b, anything else none |
| Events.ApplyEvent | unit_tests/environment/test_double_battle.py:259-271 | an event naming a creature by an identifier that is not slot-qualified is rejected. Each event is applied by its transition, the player message included, and the options and username never change |
| Events.Process | unit_tests/environment/test_double_battle.py:259-271 | messages are applied in arrival order: one message has exactly its own effect, one that fails leaves the battle unchanged, and the username and options never change |
| Events.ProcessAppend | unit_tests/environment/test_double_battle.py:259-271 | processing two message lists in a row is processing their concatenation |
| Scenarios.RequestRegistersSix | unit_tests/environment/test_double_battle.py:10-11 | the doubles request registers six creatures |
| Scenarios.RequestSpecies | unit_tests/environment/test_double_battle.py:13-17 | thundurus, raichualola, maractus and zamazentacrowned are registered species |
| Scenarios.ZamazentaKnowsFourMoves | unit_tests/environment/test_double_battle.py:19-27 | `get_pokemon("p1: Zamazenta")` knows exactly closecombat, crunch, psychicfangs, behemothbash |
| Scenarios.RequestFillsSlots | unit_tests/environment/test_double_battle.py:34-43 | after the request Mr. Rime and Klinklang are shown in slots a and b and nothing of the opponent is seen |
| Scenarios.ActiveAfterRequest | unit_tests/environment/test_double_battle.py:35-47 | `active_pokemon`, `all_active_pokemons` and `get_pokemon` agree on Mr. Rime and Klinklang |
| Scenarios.AvailableMovesMatchMoveSets | unit_tests/environment/test_double_battle.py:49-54 | each slot shows a creature, and its available moves are the move set of the creature `active_pokemon[i]` shows |
| Scenarios.FlagsAfterRequest | unit_tests/environment/test_double_battle.py:56-62 | two switch lists; each slot may dynamax and nothing else is set |
| Scenarios.ClearAllBoostsAfterRequest | unit_tests/environment/test_double_battle.py:64-98 | after the test's stages are set and cleared, both actives have all stages 0 and stay in place |
| Scenarios.SwapExchangesActives | unit_tests/environment/test_double_battle.py:98-100 | the swap event turns [Mr. Rime, Klinklang] into [Klinklang, Mr. Rime] |
| Scenarios.OpponentPairShown | unit_tests/environment/test_double_battle.py:102-109 | on any state whose opponent side is still unseen, sending out Milotic then Tyranitar shows both with species milotic and tyranitar; the opponent may still dynamax in both slots and the own side is unchanged |
| Scenarios.SwapThenOpponentPair | unit_tests/environment/test_double_battle.py:95-109 | replayed from the stages being cleared: after the swap the own actives are [Klinklang, Mr. Rime], and after Milotic and Tyranitar are sent out they are shown with their species, the opponent may still dynamax, and the own actives stay swapped |
| Scenarios.PossibleTargetsReplay | unit_tests/environment/test_double_battle.py:121-131 | [-2, 2], then [-2, 1, 2], [0], [1, 2] and [0] |
| Scenarios.ShowdownTargetsAfterRequest | unit_tests/environment/test_double_battle.py:139-147 | -2 for Klinklang, 0 for the unseen opponent, 0 for a self move with or without a target |
| Scenarios.NewBattleIsFresh | unit_tests/environment/test_double_battle.py:8 | a new battle has an empty own team, four empty slots and the opponent able to dynamax in both slots, the state every test starts from |
| Scenarios.MrRimeMoveRefs | unit_tests/environment/test_double_battle.py:114-117 | after the request, slot 0's usable moves are Psychic then Slack Off, the two moves the target tests look up on Mr. Rime |
| Scenarios.IllusionSetUp | unit_tests/environment/test_double_battle.py:150-158 | after the four switches, own slots show Celebi and Ferrothorn, the role is p2, and Zoroark is not yet known |
| Scenarios.IllusionRevealsZoroark | unit_tests/environment/test_double_battle.py:160-166 | the illusion end succeeds; Zoroark and Ferrothorn are active; Celebi is registered but not active |
| Scenarios.OneMonLeft | unit_tests/environment/test_double_battle.py:258-279 | after the swap, slot a reads empty and offers no move; slot b shows Milotic (species milotic) and offers recover then haze |

## Left out

- The logger, the battle tag and the generation number: they do not affect any behaviour shown.
- Move and species catalogue data: a move's target kind is carried by the request move (`TargetKind`), and no base stats or types are modelled.
- HP arithmetic and the status part of a condition string: only the fainted marker `" fnt"` is read.
- Turning request JSON into a `Request` value: the request is taken already structured. Its stats, items, abilities, tera and `rqid` fields are not modelled.
- The `player` message's avatar and rating fields, and any message kind the model does not name; those are `Unrecognized` and leave the battle unchanged.
- Dynamax, tera and z-move eligibility rules: the flags are copied from the request. `opponent_can_dynamax` starts true for both slots and no modelled event changes it.
- Boosts, status and other state are not carried from the stand-in to the revealed creature on an illusion end.
- The doubles request fixture of the first four tests is not shown. `Scenarios.DoublesRequest` is a reconstruction that carries only what those tests read from it: six creatures, Mr. Rime and Klinklang active, Mr. Rime with Psychic and Slack Off, and Zamazenta with four moves.
- Identifiers.ToId: only ASCII letters and digits are kept and only ASCII upper case is lowered. Python's test and lower-casing cover all of Unicode, so a name such as "Flabébé" keeps its accented letters there and loses them here. No name in the tests has a non-ASCII character.

=== FILE: battle.dfy ===
/** The state of a double battle as one player sees it: both sides' team
    registries, the two battle slots of each side, and the legal options the
    latest request granted. Every transition is a pure function. */
module Battles {
  import opened Wrappers
  import opened Identifiers
  import opened Creatures

  /** One side: its registry, keyed by team key, and its two slots, which hold
      keys into that registry (or nothing). */
  datatype Side = Side(team: map<Key, Pokemon>, slots: seq<Option<Key>>)

  /** The per-slot flags a request grants. */
  datatype SlotFlags = SlotFlags(
    trapped: bool,
    maybeTrapped: bool,
    forceSwitch: bool,
    canDynamax: bool,
    canMegaEvolve: bool,
    canZMove: bool)

  const NoFlags := SlotFlags(false, false, false, false, false, false)

  /** Legal options per own slot: usable moves, creatures that may switch in, flags. */
  datatype Options = Options(
    moves: seq<seq<MoveRef>>,
    switches: seq<seq<Key>>,
    flags: seq<SlotFlags>)

  const NoOptions := Options([[], []], [[], []], [NoFlags, NoFlags])

  datatype Battle = Battle(
    username: string,
    role: Option<string>,
    turn: nat,
    own: Side,
    opp: Side,
    options: Options,
    opponentCanDynamax: seq<bool>)

  /** A record as the registry keeps it: seven boost stages, no move id twice. */
  predicate RecordOk(p: Pokemon) {
    FullBoosts(p.boosts) && NoRepeats(p.moves)
  }

  /** Two slots, every occupant registered, no creature in both slots, every record
      well kept. */
  predicate SideOk(s: Side) {
    && |s.slots| == 2
    && (forall i :: 0 <= i < 2 && s.slots[i].Some? ==> s.slots[i].value in s.team)
    && (s.slots[0].Some? ==> s.slots[0] != s.slots[1])
    && (forall k :: k in s.team ==> RecordOk(s.team[k]))
  }

  predicate OptionsOk(o: Options) {
    |o.moves| == 2 && |o.switches| == 2 && |o.flags| == 2
  }

  predicate WellFormed(b: Battle) {
    SideOk(b.own) && SideOk(b.opp) && OptionsOk(b.options) && |b.opponentCanDynamax| == 2
  }

  const EmptySide := Side(map[], [None, None])

  /** A fresh battle: nothing seen, no role bound, the opponent presumed able to dynamax. */
  function NewBattle(username: string): (b: Battle)
    ensures WellFormed(b)
    ensures b.own.team == map[] && b.opp.team == map[] && b.role.None?
    ensures forall i :: 0 <= i < 2 ==> b.own.slots[i].None? && b.opp.slots[i].None?
    ensures forall i :: 0 <= i < 2 ==> b.opponentCanDynamax[i]
  {
    Battle(username, None, 0, EmptySide, EmptySide, NoOptions, [true, true])
  }

  /** What slot i shows: its occupant, unless there is none, it is unknown, on the
      bench or fainted. */
  function Visible(s: Side, i: nat): (r: Option<Key>)
    requires |s.slots| == 2 && i < 2
    ensures r.Some? <==>
              s.slots[i].Some? && s.slots[i].value in s.team
              && s.team[s.slots[i].value].active && !s.team[s.slots[i].value].fainted
    ensures r.Some? ==> r == s.slots[i]
  {
    match s.slots[i]
    case None => None
    case Some(k) =>
      if k in s.team && s.team[k].active && !s.team[k].fainted then Some(k) else None
  }

  function ActiveView(s: Side): (r: seq<Option<Key>>)
    requires |s.slots| == 2
    ensures |r| == 2 && forall i :: 0 <= i < 2 ==> r[i] == Visible(s, i)
  {
    [Visible(s, 0), Visible(s, 1)]
  }

  predicate IsVisible(s: Side, k: Key)
    requires |s.slots| == 2
  {
    Visible(s, 0) == Some(k) || Visible(s, 1) == Some(k)
  }

  /** The own side's active creatures, slot a then slot b. */
  function ActivePokemon(b: Battle): seq<Option<Key>>
    requires WellFormed(b)
  {
    ActiveView(b.own)
  }

  function OpponentActivePokemon(b: Battle): seq<Option<Key>>
    requires WellFormed(b)
  {
    ActiveView(b.opp)
  }

  /** Own two slots followed by the opponent's two. */
  function AllActivePokemons(b: Battle): (r: seq<Option<Key>>)
    requires WellFormed(b)
    ensures |r| == 4
    ensures r[..2] == ActivePokemon(b) && r[2..] == OpponentActivePokemon(b)
  {
    ActivePokemon(b) + OpponentActivePokemon(b)
  }

  /** Looks a creature up by team key; the own team is searched first. A miss is
      reported, never filled with a default. */
  function Lookup(b: Battle, k: Key): (r: Option<Pokemon>)
    ensures r.Some? <==> k in b.own.team || k in b.opp.team
    ensures k in b.own.team ==> r == Some(b.own.team[k])
    ensures k !in b.own.team && k in b.opp.team ==> r == Some(b.opp.team[k])
  {
    if k in b.own.team then Some(b.own.team[k])
    else if k in b.opp.team then Some(b.opp.team[k])
    else None
  }

  /** The team key an identifier names: "p1a: Name" and "p1: Name" both name "p1: Name". */
  function IdentKey(ident: string): (r: Option<Key>)
    ensures ParsePosition(ident).Some? ==> r == Some(KeyOf(ParsePosition(ident).value))
    ensures ParsePosition(ident).None? ==> r == ParseKey(ident)
  {
    match ParsePosition(ident)
    case Some(pos) => Some(KeyOf(pos))
    case None => ParseKey(ident)
  }

  /** get_pokemon: looks a creature up by identifier, slot-qualified or not. */
  function GetPokemon(b: Battle, ident: string): (r: Option<Pokemon>)
    ensures r.Some? <==> IdentKey(ident).Some? && Lookup(b, IdentKey(ident).value).Some?
    ensures r.Some? ==> r == Lookup(b, IdentKey(ident).value)
  {
    match IdentKey(ident)
    case None => None
    case Some(k) => Lookup(b, k)
  }

  /** The team key, spelled out, finds the creature registered under it. */
  lemma GetPokemonByKey(b: Battle, k: Key)
    requires ValidPlayer(k.player)
    ensures GetPokemon(b, FormatKey(k)) == Lookup(b, k)
  {
    ParseFormatKey(k);
    assert FormatKey(k)[3] == ' ';
  }

  /** Both spellings of an identifier find the same creature. */
  lemma GetPokemonEitherSpelling(b: Battle, pos: Position)
    requires ValidPosition(pos)
    ensures GetPokemon(b, FormatPosition(pos)) == GetPokemon(b, FormatKey(KeyOf(pos)))
    ensures GetPokemon(b, FormatPosition(pos)) == Lookup(b, KeyOf(pos))
  {
    ParseFormat(pos);
    ParseFormatKey(KeyOf(pos));
    var t := FormatKey(KeyOf(pos));
    assert t[3] == ' ';
  }

  /** Events about `player` concern the own side exactly when it is the bound role. */
  function SideOf(b: Battle, player: string): Side {
    if b.role == Some(player) then b.own else b.opp
  }

  /** `r` differs from `b` at most in the side of `player`. */
  predicate OnlySideChanged(b: Battle, r: Battle, player: string) {
    && (b.role == Some(player) ==> r.opp == b.opp)
    && (b.role != Some(player) ==> r.own == b.own)
    && r.username == b.username && r.role == b.role && r.turn == b.turn
    && r.options == b.options && r.opponentCanDynamax == b.opponentCanDynamax
  }

  function WithSide(b: Battle, player: string, s: Side): (r: Battle)
    ensures SideOf(r, player) == s
    ensures OnlySideChanged(b, r, player)
  {
    if b.role == Some(player) then b.(own := s) else b.(opp := s)
  }

  /** A record pushed out of its slot: benched with every stage at 0, otherwise as it was. */
  predicate Displaced(before: Pokemon, after: Pokemon) {
    && !after.active && after.boosts == ZeroBoosts
    && after.(active := before.active, boosts := before.boosts) == before
  }

  /** Every record other than the one entering `slot` and the one it displaces is kept. */
  predicate BystandersKept(before: Side, after: Side, key: Key, slot: nat)
    requires |before.slots| == 2 && slot < 2
  {
    forall k :: k in before.team && k != key && Some(k) != before.slots[slot] ==>
      k in after.team && after.team[k] == before.team[k]
  }

  /** Sends `out` to the bench: no longer active, its boosts cleared. */
  function Bench(team: map<Key, Pokemon>, out: Key): (t: map<Key, Pokemon>)
    requires out in team && RecordOk(team[out])
    ensures t.Keys == team.Keys
    ensures !t[out].active && t[out].boosts == ZeroBoosts && RecordOk(t[out])
    ensures t[out].(active := team[out].active, boosts := team[out].boosts) == team[out]
    ensures forall k :: k in team && k != out ==> t[k] == team[k]
  {
    ClearBoostsIsZero(team[out]);
    team[out := ClearBoosts(team[out]).(active := false)]
  }

  /** The record of `key` as it enters a slot: created on first sight, species from
      `details`, active, and fainted as the event says when it says. */
  function Entering(team: map<Key, Pokemon>, key: Key, details: string, fainted: Option<bool>): (p: Pokemon)
    requires key in team ==> RecordOk(team[key])
    ensures RecordOk(p) && p.active && p.species == SpeciesOf(details)
    ensures p.moves == (if key in team then team[key].moves else [])
    ensures fainted.Some? ==> p.fainted == fainted.value
    ensures fainted.None? ==> p.fainted == (key in team && team[key].fainted)
    ensures key in team ==> p == team[key].(species := SpeciesOf(details), active := true, fainted := p.fainted)
    ensures key !in team ==> p == NewPokemon(SpeciesOf(details)).(active := true, fainted := p.fainted)
  {
    var prior := if key in team then team[key] else NewPokemon(SpeciesOf(details));
    var f := if fainted.Some? then fainted.value else prior.fainted;
    prior.(species := SpeciesOf(details), active := true, fainted := f)
  }

  /** What the other slot holds once `key` enters `slot`: a creature stands in one
      slot only, so it leaves the other slot if it stood there. */
  function Vacate(slots: seq<Option<Key>>, slot: nat, key: Key): (o: Option<Key>)
    requires |slots| == 2 && slot < 2
    ensures o != Some(key)
    ensures slots[1 - slot] != Some(key) ==> o == slots[1 - slot]
  {
    if slots[1 - slot] == Some(key) then None else slots[1 - slot]
  }

  /** The slots once `key` enters `slot`. */
  function Seat(slots: seq<Option<Key>>, slot: nat, key: Key): (r: seq<Option<Key>>)
    requires |slots| == 2 && slot < 2
    requires slots[0].Some? ==> slots[0] != slots[1]
    ensures |r| == 2 && r[slot] == Some(key) && r[1 - slot] == Vacate(slots, slot, key)
    ensures r[0].Some? ==> r[0] != r[1]
    ensures forall i :: 0 <= i < 2 && r[i].Some? && r[i] != Some(key) ==> r[i] in slots
  {
    if slot == 0 then [Some(key), Vacate(slots, 0, key)] else [Vacate(slots, 1, key), Some(key)]
  }

  /** The registry once `entering` is recorded under `key` and the creature `out` it
      pushes out of a slot, if another one, goes to the bench. */
  function Admit(team: map<Key, Pokemon>, out: Option<Key>, key: Key, entering: Pokemon): (t: map<Key, Pokemon>)
    requires forall k :: k in team ==> RecordOk(team[k])
    requires out.Some? ==> out.value in team
    requires RecordOk(entering)
    ensures t.Keys == team.Keys + {key} && t[key] == entering
    ensures forall k :: k in t ==> RecordOk(t[k])
    ensures out.Some? && out.value != key ==> Displaced(team[out.value], t[out.value])
    ensures forall k :: k in team && k != key && Some(k) != out ==> t[k] == team[k]
  {
    var kept := if out.Some? && out.value != key then Bench(team, out.value) else team;
    kept[key := entering]
  }

  /** Puts `key` into `slot`: the previous occupant, if another creature, goes to the
      bench, and `key` leaves the other slot if it stood there; the incoming record is
      as `Entering` describes. */
  function Occupy(s: Side, slot: nat, key: Key, details: string, fainted: Option<bool>): (r: Side)
    requires SideOk(s) && slot < 2
    ensures SideOk(r)
    ensures |r.slots| == 2 && r.slots[slot] == Some(key)
    ensures r.slots[1 - slot] == Vacate(s.slots, slot, key)
    ensures r.team.Keys == s.team.Keys + {key}
    ensures r.team[key].active && r.team[key].species == SpeciesOf(details)
    ensures key in s.team ==> r.team[key].moves == s.team[key].moves
    ensures key !in s.team ==> r.team[key].moves == []
    ensures fainted.Some? ==> r.team[key].fainted == fainted.value
    ensures fainted.None? ==> r.team[key].fainted == (key in s.team && s.team[key].fainted)
    ensures key in s.team ==>
              r.team[key] == s.team[key].(species := SpeciesOf(details), active := true, fainted := r.team[key].fainted)
    ensures key !in s.team ==>
              r.team[key] == NewPokemon(SpeciesOf(details)).(active := true, fainted := r.team[key].fainted)
    ensures s.slots[slot].Some? && s.slots[slot].value != key ==>
              Displaced(s.team[s.slots[slot].value], r.team[s.slots[slot].value])
    ensures forall k :: k in s.team && k != key && Some(k) != s.slots[slot] ==> r.team[k] == s.team[k]
  {
    var entering := Entering(s.team, key, details, fainted);
    Side(Admit(s.team, s.slots[slot], key, entering), Seat(s.slots, slot, key))
  }

  /** The other slot reads as before, unless it showed the entering creature. */
  lemma OccupyKeepsOtherSlot(s: Side, slot: nat, key: Key, details: string, fainted: Option<bool>)
    requires SideOk(s) && slot < 2
    ensures var other := Visible(s, 1 - slot);
            Visible(Occupy(s, slot, key, details, fainted), 1 - slot) == if other == Some(key) then None else other
  {
    var r := Occupy(s, slot, key, details, fainted);
    if s.slots[1 - slot].Some? && s.slots[1 - slot] != Some(key) {
      assert r.team[s.slots[1 - slot].value] == s.team[s.slots[1 - slot].value];
    }
  }

  /** The switch event: the creature at `pos` ("p2a: Milotic") enters that slot on its
      player's side; `fainted` is what its condition string says. */
  function Switch(b: Battle, pos: Position, details: string, fainted: bool): (r: Battle)
    requires WellFormed(b) && ValidPosition(pos)
    ensures WellFormed(r)
    ensures SideOf(r, pos.player).slots[pos.slot] == Some(KeyOf(pos))
    ensures SideOf(r, pos.player).slots[1 - pos.slot] == Vacate(SideOf(b, pos.player).slots, pos.slot, KeyOf(pos))
    ensures SideOf(r, pos.player).team[KeyOf(pos)].species == SpeciesOf(details)
    ensures KeyOf(pos) in SideOf(b, pos.player).team ==>
              SideOf(r, pos.player).team[KeyOf(pos)] ==
                SideOf(b, pos.player).team[KeyOf(pos)].(species := SpeciesOf(details), active := true, fainted := fainted)
    ensures KeyOf(pos) !in SideOf(b, pos.player).team ==>
              SideOf(r, pos.player).team[KeyOf(pos)] == NewPokemon(SpeciesOf(details)).(active := true, fainted := fainted)
    ensures Visible(SideOf(r, pos.player), pos.slot) == Some(KeyOf(pos)) <==> !fainted
    ensures SideOf(r, pos.player).team.Keys == SideOf(b, pos.player).team.Keys + {KeyOf(pos)}
    ensures var out := SideOf(b, pos.player).slots[pos.slot];
            out.Some? && out.value != KeyOf(pos) ==>
              Displaced(SideOf(b, pos.player).team[out.value], SideOf(r, pos.player).team[out.value])
    ensures BystandersKept(SideOf(b, pos.player), SideOf(r, pos.player), KeyOf(pos), pos.slot)
    ensures var other := Visible(SideOf(b, pos.player), 1 - pos.slot);
            Visible(SideOf(r, pos.player), 1 - pos.slot) == if other == Some(KeyOf(pos)) then None else other
    ensures OnlySideChanged(b, r, pos.player)
  {
    OccupyKeepsOtherSlot(SideOf(b, pos.player), pos.slot, KeyOf(pos), details, Some(fainted));
    WithSide(b, pos.player, Occupy(SideOf(b, pos.player), pos.slot, KeyOf(pos), details, Some(fainted)))
  }

  /** Exchanges the two slots. */
  function Exchange(slots: seq<Option<Key>>): (r: seq<Option<Key>>)
    requires |slots| == 2
    ensures |r| == 2 && r[0] == slots[1] && r[1] == slots[0]
  {
    [slots[1], slots[0]]
  }

  /** The named creature already stands in the slot the swap event names. */
  predicate AlreadyPlaced(s: Side, key: Key, target: Option<nat>)
    requires |s.slots| == 2
  {
    target.Some? && target.value < 2 && s.slots[target.value] == Some(key)
  }

  /** The slot exchange a swap event asks for: none when a slot is empty or the named
      creature already sits in the named slot (0 for a, 1 for b); otherwise the two
      slots trade places. A swap event that names no slot always exchanges. */
  function SwapSlots(s: Side, key: Key, target: Option<nat>): (r: Side)
    requires SideOk(s)
    ensures SideOk(r) && r.team == s.team
    ensures multiset(r.slots) == multiset(s.slots)
    ensures (s.slots[0].None? || s.slots[1].None? || AlreadyPlaced(s, key, target)) ==> r == s
    ensures s.slots[0].Some? && s.slots[1].Some? && !AlreadyPlaced(s, key, target) ==>
              r.slots == Exchange(s.slots)
    ensures s.slots[0].Some? && s.slots[1].Some? && target.Some? && target.value < 2 && Some(key) in s.slots ==>
              r.slots[target.value] == Some(key)
  {
    if s.slots[0].Some? && s.slots[1].Some? && !AlreadyPlaced(s, key, target) then
      assert s.slots == [s.slots[0], s.slots[1]];
      s.(slots := Exchange(s.slots))
    else s
  }

  /** The swap event: the creature named by `pos` moves to slot `target` of its side. */
  function Swap(b: Battle, pos: Position, target: Option<nat>): (r: Battle)
    requires WellFormed(b) && ValidPosition(pos)
    ensures WellFormed(r)
    ensures SideOf(r, pos.player) == SwapSlots(SideOf(b, pos.player), KeyOf(pos), target)
    ensures OnlySideChanged(b, r, pos.player)
  {
    WithSide(b, pos.player, SwapSlots(SideOf(b, pos.player), KeyOf(pos), target))
  }

  /** Once a creature sits in the named slot, repeating the swap event changes nothing. */
  lemma SwapIdempotent(s: Side, key: Key, target: nat)
    requires SideOk(s) && target < 2 && Some(key) in s.slots
    ensures SwapSlots(SwapSlots(s, key, Some(target)), key, Some(target)) == SwapSlots(s, key, Some(target))
  {
  }

  /** A swap that names no slot, applied twice, restores the slots. */
  lemma SwapUnnamedInvolution(s: Side, key: Key)
    requires SideOk(s)
    ensures SwapSlots(SwapSlots(s, key, None), key, None) == s
  {
    if s.slots[0].Some? && s.slots[1].Some? {
      assert s.slots == [s.slots[0], s.slots[1]];
    }
  }

  /** A swap changes where creatures stand, never which creatures are visible. */
  lemma SwapKeepsVisibleSet(s: Side, key: Key, target: Option<nat>, k: Key)
    requires SideOk(s)
    ensures IsVisible(SwapSlots(s, key, target), k) <==> IsVisible(s, k)
  {
  }

  /** The illusion-end event: the creature revealed at `pos` ("p2a: Zoroark") takes over
      the slot its stand-in held. The stand-in stays registered, on the bench. An event
      naming an empty slot has no stand-in to reveal and is reported. */
  function EndIllusion(b: Battle, pos: Position, details: string): (r: Result<Battle>)
    requires WellFormed(b) && ValidPosition(pos)
    ensures r.Err? <==> SideOf(b, pos.player).slots[pos.slot].None?
    ensures r.Err? ==> r.error == EmptySlot(FormatPosition(pos))
    ensures r.Ok? ==> WellFormed(r.value)
    ensures r.Ok? ==>
      var before := SideOf(b, pos.player);
      var after := SideOf(r.value, pos.player);
      var standIn := before.slots[pos.slot].value;
      && after.slots[pos.slot] == Some(KeyOf(pos))
      && after.slots[1 - pos.slot] == Vacate(before.slots, pos.slot, KeyOf(pos))
      && after.team.Keys == before.team.Keys + {KeyOf(pos)}
      && after.team[KeyOf(pos)].species == SpeciesOf(details)
      && (KeyOf(pos) in before.team ==>
            after.team[KeyOf(pos)] == before.team[KeyOf(pos)].(species := SpeciesOf(details), active := true))
      && (KeyOf(pos) !in before.team ==>
            after.team[KeyOf(pos)] == NewPokemon(SpeciesOf(details)).(active := true))
      && (Visible(after, pos.slot) == Some(KeyOf(pos)) <==>
            !(KeyOf(pos) in before.team && before.team[KeyOf(pos)].fainted))
      && (standIn != KeyOf(pos) ==> Displaced(before.team[standIn], after.team[standIn]))
      && BystandersKept(before, after, KeyOf(pos), pos.slot)
    ensures r.Ok? ==> OnlySideChanged(b, r.value, pos.player)
  {
    var side := SideOf(b, pos.player);
    if side.slots[pos.slot].None? then Err(EmptySlot(FormatPosition(pos)))
    else Ok(WithSide(b, pos.player, Occupy(side, pos.slot, KeyOf(pos), details, None)))
  }

  /** The faint event: the named creature is flagged fainted; it stays registered. A
      creature never seen is reported. */
  function Faint(b: Battle, pos: Position): (r: Result<Battle>)
    requires WellFormed(b) && ValidPosition(pos)
    ensures r.Ok? <==> KeyOf(pos) in SideOf(b, pos.player).team
    ensures r.Ok? ==> WellFormed(r.value)
    ensures r.Ok? ==>
              var after := SideOf(r.value, pos.player);
              && KeyOf(pos) in after.team && after.team[KeyOf(pos)].fainted
              && after.team.Keys == SideOf(b, pos.player).team.Keys
              && after.slots == SideOf(b, pos.player).slots
              && !IsVisible(after, KeyOf(pos))
    ensures r.Ok? ==>
              SideOf(r.value, pos.player).team ==
                SideOf(b, pos.player).team[KeyOf(pos) := SideOf(b, pos.player).team[KeyOf(pos)].(fainted := true)]
    ensures r.Ok? ==> OnlySideChanged(b, r.value, pos.player)
  {
    var side := SideOf(b, pos.player);
    var k := KeyOf(pos);
    if k !in side.team then Err(UnknownPokemon(FormatKey(k)))
    else Ok(WithSide(b, pos.player, side.(team := side.team[k := side.team[k].(fainted := true)])))
  }

  /** Clears the boosts of every creature the side shows in a slot. */
  function ClearVisibleBoosts(s: Side): (r: Side)
    requires SideOk(s)
    ensures SideOk(r) && r.slots == s.slots && r.team.Keys == s.team.Keys
    ensures forall k :: k in s.team && IsVisible(s, k) ==>
              FullBoosts(r.team[k].boosts) && forall st :: st in AllStats ==> r.team[k].boosts[st] == 0
    ensures forall k :: k in s.team && !IsVisible(s, k) ==> r.team[k] == s.team[k]
    ensures forall k :: k in s.team ==> r.team[k].(boosts := s.team[k].boosts) == s.team[k]
  {
    var team := map k | k in s.team :: if IsVisible(s, k) then ClearBoosts(s.team[k]) else s.team[k];
    Side(team, s.slots)
  }

  /** Clearing boosts leaves who is active where as it was. */
  lemma ClearVisibleKeepsView(s: Side)
    requires SideOk(s)
    ensures ActiveView(ClearVisibleBoosts(s)) == ActiveView(s)
  {
  }

  /** clear_all_boosts: every active creature of both sides gets all stages back to 0. */
  function ClearAllBoosts(b: Battle): (r: Battle)
    requires WellFormed(b)
    ensures WellFormed(r)
    ensures r.own == ClearVisibleBoosts(b.own) && r.opp == ClearVisibleBoosts(b.opp)
    ensures r.(own := b.own, opp := b.opp) == b
  {
    b.(own := ClearVisibleBoosts(b.own), opp := ClearVisibleBoosts(b.opp))
  }

  /** After clear_all_boosts every creature shown on the own side has the seven stages
      at 0, and the slots read as before. */
  lemma ClearAllBoostsZeroesOwn(b: Battle, k: Key)
    requires WellFormed(b) && IsVisible(b.own, k)
    ensures ClearAllBoosts(b).own.team[k].boosts == ZeroBoosts
    ensures ActivePokemon(ClearAllBoosts(b)) == ActivePokemon(b)
  {
    ClearBoostsIsZero(b.own.team[k]);
    ClearVisibleKeepsView(b.own);
  }
}

=== FILE: creatures.dfy ===
/** One creature record of a side's team: species, known move ids, boost stages
    and the two flags the slot model reads (active, fainted). */
module Creatures {

  /** The seven stats that carry a boost stage. */
  datatype Stat = Accuracy | Atk | Def | Evasion | Spa | Spd | Spe

  const AllStats: set<Stat> := {Accuracy, Atk, Def, Evasion, Spa, Spd, Spe}

  /** Boost stages, one entry per stat. */
  type Boosts = map<Stat, int>

  /** The map has an entry for each of the seven stats. */
  predicate FullBoosts(b: Boosts) {
    forall st: Stat :: st in b
  }

  const ZeroBoosts: Boosts := map s | s in AllStats :: 0

  /** The seven stats are all there are. */
  lemma AllStatsComplete(st: Stat)
    ensures st in AllStats
  {
    match st
    case Accuracy =>
    case Atk =>
    case Def =>
    case Evasion =>
    case Spa =>
    case Spd =>
    case Spe =>
  }

  /** A map with an entry for each member of AllStats has one for every stat. */
  lemma CoversAllStats(b: Boosts)
    requires AllStats <= b.Keys
    ensures FullBoosts(b)
  {
    forall st: Stat ensures st in b {
      AllStatsComplete(st);
    }
  }

  /** A creature record. `moves` holds move ids in discovery order, without repeats. */
  datatype Pokemon = Pokemon(
    species: string,
    moves: seq<string>,
    boosts: Boosts,
    active: bool,
    fainted: bool)

  /** How a move picks its target: one chosen creature (ally or foe), only its
      user, or no choice at all (spread and field-wide moves). */
  datatype TargetKind = AnySingle | SelfOnly | NoChoice

  /** A move as the targeting logic needs it: its id and its target kind. */
  datatype MoveRef = MoveRef(id: string, target: TargetKind)

  predicate NoRepeats(xs: seq<string>) {
    forall i, j :: 0 <= i < j < |xs| ==> xs[i] != xs[j]
  }

  /** A creature seen for the first time: no moves known, all seven stages at 0, on the bench. */
  function NewPokemon(species: string): (p: Pokemon)
    ensures FullBoosts(p.boosts) && forall s :: s in p.boosts ==> p.boosts[s] == 0
    ensures p.species == species && p.moves == [] && !p.active && !p.fainted
  {
    CoversAllStats(ZeroBoosts);
    Pokemon(species, [], ZeroBoosts, false, false)
  }

  /** Resets every boost stage the record carries to 0, whatever it was. */
  function ClearBoosts(p: Pokemon): (r: Pokemon)
    ensures r.boosts.Keys == p.boosts.Keys
    ensures forall s :: s in r.boosts ==> r.boosts[s] == 0
    ensures r.(boosts := p.boosts) == p
  {
    p.(boosts := map s | s in p.boosts :: 0)
  }

  /** On a record with all seven entries, clearing yields exactly the zero map. */
  lemma ClearBoostsIsZero(p: Pokemon)
    requires FullBoosts(p.boosts)
    ensures ClearBoosts(p).boosts == ZeroBoosts
  {
    CoversAllStats(ZeroBoosts);
  }

  /** Appends the ids of `req` that `known` lacks, in request order, without repeats. */
  function AddMissing(known: seq<string>, req: seq<string>): (r: seq<string>)
    requires NoRepeats(known)
    ensures NoRepeats(r)
    ensures known <= r
    ensures forall x :: x in r <==> x in known || x in req
    decreases |req|
  {
    if req == [] then known
    else if req[0] in known then AddMissing(known, req[1..])
    else AddMissing(known + [req[0]], req[1..])
  }

  /** Keeps the ids of `xs` that also occur in `keep`, in their order. */
  function KeepOnly(xs: seq<string>, keep: seq<string>): (r: seq<string>)
    ensures forall x :: x in r <==> x in xs && x in keep
    ensures NoRepeats(xs) ==> NoRepeats(r)
    ensures |r| <= |xs|
  {
    if xs == [] then []
    else if xs[0] in keep then [xs[0]] + KeepOnly(xs[1..], keep)
    else KeepOnly(xs[1..], keep)
  }

  /** The move list after a request names a creature's moves: the request's ids are
      added to the known ones; when that gives more than four, only the request's
      ids are kept. */
  function MergeMoves(known: seq<string>, req: seq<string>): (r: seq<string>)
    requires NoRepeats(known)
    ensures NoRepeats(r)
    ensures forall x :: x in req ==> x in r
    ensures forall x :: x in r ==> x in known || x in req
    ensures |AddMissing(known, req)| > 4 ==> forall x :: x in r <==> x in req
    ensures |AddMissing(known, req)| <= 4 ==> known <= r
  {
    var all := AddMissing(known, req);
    if |all| > 4 then KeepOnly(all, req) else all
  }

  /** Ids the record does not know yet, none repeated, are appended as they come. */
  lemma {:induction false} AddMissingDisjoint(known: seq<string>, req: seq<string>)
    requires NoRepeats(known) && NoRepeats(req)
    requires forall x :: x in req ==> x !in known
    ensures AddMissing(known, req) == known + req
    decreases |req|
  {
    if req != [] {
      var next := known + [req[0]];
      assert NoRepeats(next) by {
        forall i, j | 0 <= i < j < |next| ensures next[i] != next[j] {
          assert next[i] == known[i];
          if j == |known| {
            assert next[j] == req[0];
            assert known[i] in known;
          } else {
            assert next[j] == known[j];
          }
        }
      }
      assert NoRepeats(req[1..]) by {
        forall i, j | 0 <= i < j < |req[1..]| ensures req[1..][i] != req[1..][j] {
          assert req[1..][i] == req[i + 1] && req[1..][j] == req[j + 1];
        }
      }
      forall x | x in req[1..] ensures x !in next {
        var j :| 0 <= j < |req[1..]| && req[1..][j] == x;
        assert req[j + 1] == x;
      }
      AddMissingDisjoint(next, req[1..]);
      assert next + req[1..] == known + req;
    }
  }

  /** A creature that knows no moves yet takes a request's list of at most four distinct
      ids exactly as given. */
  lemma MergeMovesFresh(req: seq<string>)
    requires NoRepeats(req) && |req| <= 4
    ensures MergeMoves([], req) == req
  {
    AddMissingDisjoint([], req);
    assert [] + req == req;
  }
}

=== FILE: events.dfy ===
/** Protocol events, applied one at a time in arrival order. An event that cannot
    be applied is skipped and leaves the state as it was. */
module Events {
  import opened Wrappers
  import opened Identifiers
  import opened Battles

  datatype Event =
    | PlayerEvent(role: string, username: string)
    | SwitchEvent(ident: string, details: string, condition: string)
    | SwapEvent(ident: string, slot: string)
    | FaintEvent(ident: string)
    | IllusionEndEvent(ident: string, details: string)
    | TurnEvent(turn: nat)
    | Unrecognized

  /** The player event binds the own role when it names this client's username. */
  function BindPlayer(b: Battle, role: string, username: string): (r: Battle)
    ensures username == b.username ==> r.role == Some(role)
    ensures username != b.username ==> r.role == b.role
    ensures r.(role := b.role) == b
  {
    if username == b.username then b.(role := Some(role)) else b
  }

  /** The slot a swap event names: "0" for a, "1" for b; any other token names none. */
  function SlotToken(t: string): (r: Option<nat>)
    ensures r.Some? ==> r.value < 2
    ensures r == Some(0) <==> t == "0"
    ensures r == Some(1) <==> t == "1"
  {
    if t == "0" then Some(0) else if t == "1" then Some(1) else None
  }

  /** The events that name a creature by a slot-qualified identifier. */
  predicate NamesCreature(e: Event) {
    e.SwitchEvent? || e.SwapEvent? || e.FaintEvent? || e.IllusionEndEvent?
  }

  /** The effect of one event. An identifier that is not slot-qualified is rejected. */
  function ApplyEvent(b: Battle, e: Event): (r: Result<Battle>)
    requires WellFormed(b)
    ensures r.Ok? ==> WellFormed(r.value)
    ensures r.Ok? ==> r.value.username == b.username && r.value.options == b.options
    ensures r.Ok? && !e.PlayerEvent? ==> r.value.role == b.role
    ensures NamesCreature(e) && ParsePosition(e.ident).None? ==> r == Err(MalformedIdentifier(e.ident))
    ensures e.SwitchEvent? && ParsePosition(e.ident).Some? ==>
              r == Ok(Switch(b, ParsePosition(e.ident).value, e.details, IsFaintCondition(e.condition)))
    ensures e.SwapEvent? && ParsePosition(e.ident).Some? ==>
              r == Ok(Swap(b, ParsePosition(e.ident).value, SlotToken(e.slot)))
    ensures e.FaintEvent? && ParsePosition(e.ident).Some? ==> r == Faint(b, ParsePosition(e.ident).value)
    ensures e.IllusionEndEvent? && ParsePosition(e.ident).Some? ==>
              r == EndIllusion(b, ParsePosition(e.ident).value, e.details)
    ensures e.PlayerEvent? ==> r == Ok(BindPlayer(b, e.role, e.username))
    ensures e.Unrecognized? ==> r == Ok(b)
    ensures e.TurnEvent? ==> r == Ok(b.(turn := e.turn))
  {
    match e
    case PlayerEvent(role, username) => Ok(BindPlayer(b, role, username))
    case TurnEvent(turn) => Ok(b.(turn := turn))
    case Unrecognized => Ok(b)
    case SwitchEvent(ident, details, condition) =>
      if ParsePosition(ident).None? then Err(MalformedIdentifier(ident))
      else Ok(Switch(b, ParsePosition(ident).value, details, IsFaintCondition(condition)))
    case SwapEvent(ident, slot) =>
      if ParsePosition(ident).None? then Err(MalformedIdentifier(ident))
      else Ok(Swap(b, ParsePosition(ident).value, SlotToken(slot)))
    case FaintEvent(ident) =>
      if ParsePosition(ident).None? then Err(MalformedIdentifier(ident))
      else Faint(b, ParsePosition(ident).value)
    case IllusionEndEvent(ident, details) =>
      if ParsePosition(ident).None? then Err(MalformedIdentifier(ident))
      else EndIllusion(b, ParsePosition(ident).value, details)
  }

  /** Applies the events in order; one that fails is skipped. */
  function Process(b: Battle, es: seq<Event>): (r: Battle)
    requires WellFormed(b)
    ensures WellFormed(r)
    ensures r.username == b.username && r.options == b.options
    ensures (forall i :: 0 <= i < |es| ==> !es[i].PlayerEvent?) ==> r.role == b.role
    ensures |es| == 1 && ApplyEvent(b, es[0]).Ok? ==> r == ApplyEvent(b, es[0]).value
    ensures |es| == 1 && ApplyEvent(b, es[0]).Err? ==> r == b
    decreases |es|
  {
    if es == [] then b
    else
      var next := match ApplyEvent(b, es[0]) case Ok(b1) => b1 case Err(_) => b;
      Process(next, es[1..])
  }

  /** Processing a concatenation is processing one part, then the other. */
  lemma {:induction false} ProcessAppend(b: Battle, xs: seq<Event>, ys: seq<Event>)
    requires WellFormed(b)
    ensures Process(b, xs + ys) == Process(Process(b, xs), ys)
    decreases |xs|
  {
    if xs != [] {
      assert (xs + ys)[1..] == xs[1..] + ys;
      var next := match ApplyEvent(b, xs[0]) case Ok(b1) => b1 case Err(_) => b;
      ProcessAppend(next, xs[1..], ys);
    } else {
      assert xs + ys == ys;
    }
  }
}

=== FILE: identifiers.dfy ===
/** Identifier strings of the battle protocol: slot-qualified positions
    ("p1a: Mr. Rime"), side-scoped team keys ("p1: Mr. Rime"), normalised
    ids ("zamazentacrowned") and the detail and condition strings. */
module Identifiers {
  import opened Wrappers

  /** A player label is "p" followed by a digit 1-4. */
  predicate ValidPlayer(p: string) {
    |p| == 2 && p[0] == 'p' && '1' <= p[1] <= '4'
  }

  /** A slot-qualified identifier: player, slot (0 for "a", 1 for "b") and display name. */
  datatype Position = Position(player: string, slot: nat, name: string)

  predicate ValidPosition(pos: Position) {
    ValidPlayer(pos.player) && pos.slot < 2
  }

  function SlotLetter(slot: nat): char
    requires slot < 2
  {
    if slot == 0 then 'a' else 'b'
  }

  /** Renders a position the way the protocol writes it, e.g. "p2b: Tyranitar". */
  function FormatPosition(pos: Position): (s: string)
    requires ValidPosition(pos)
    ensures |s| == |pos.name| + 5
    ensures s[..2] == pos.player && s[5..] == pos.name
  {
    pos.player + [SlotLetter(pos.slot)] + ": " + pos.name
  }

  /** Reads a slot-qualified identifier; anything else is rejected. */
  function ParsePosition(s: string): (r: Option<Position>)
    ensures r.Some? ==> |s| >= 5 && ValidPosition(r.value)
    ensures r.Some? ==> r.value.player == s[..2] && r.value.name == s[5..]
    ensures r.Some? ==> s[2] == SlotLetter(r.value.slot) && s[3..5] == ": "
  {
    if |s| >= 5 && ValidPlayer(s[..2]) && (s[2] == 'a' || s[2] == 'b') && s[3] == ':' && s[4] == ' '
    then Some(Position(s[..2], if s[2] == 'a' then 0 else 1, s[5..]))
    else None
  }

  /** Parsing undoes formatting. */
  lemma ParseFormat(pos: Position)
    requires ValidPosition(pos)
    ensures ParsePosition(FormatPosition(pos)) == Some(pos)
  {
    var s := FormatPosition(pos);
    assert s[2] == SlotLetter(pos.slot) && s[3] == ':' && s[4] == ' ';
  }

  /** Formatting undoes parsing: no accepted identifier is rewritten. */
  lemma FormatParse(s: string)
    requires ParsePosition(s).Some?
    ensures FormatPosition(ParsePosition(s).value) == s
  {
    var t := FormatPosition(ParsePosition(s).value);
    assert |t| == |s|;
    forall i | 0 <= i < |s| ensures t[i] == s[i] {
      if i < 2 {
        assert t[i] == t[..2][i];
      } else if i >= 5 {
        assert t[i] == t[5..][i - 5];
      }
    }
  }

  /** A side-scoped team key, written "p1: Name": the player and the display name. */
  datatype Key = Key(player: string, name: string)

  /** The team key of a slot-qualified position: the slot is dropped. */
  function KeyOf(pos: Position): Key {
    Key(pos.player, pos.name)
  }

  function FormatKey(k: Key): (s: string)
    requires ValidPlayer(k.player)
    ensures |s| == |k.name| + 4
    ensures s[..2] == k.player && s[4..] == k.name
  {
    k.player + ": " + k.name
  }

  /** Reads a team key "p1: Name"; anything else is rejected. */
  function ParseKey(s: string): (r: Option<Key>)
    ensures r.Some? ==> |s| >= 4 && ValidPlayer(r.value.player)
    ensures r.Some? ==> r.value.player == s[..2] && r.value.name == s[4..] && s[2..4] == ": "
  {
    if |s| >= 4 && ValidPlayer(s[..2]) && s[2] == ':' && s[3] == ' '
    then Some(Key(s[..2], s[4..]))
    else None
  }

  /** Parsing a formatted key gives the key back. */
  lemma ParseFormatKey(k: Key)
    requires ValidPlayer(k.player)
    ensures ParseKey(FormatKey(k)) == Some(k)
  {
    var s := FormatKey(k);
    assert s[2] == ':' && s[3] == ' ';
  }

  /** Formatting a parsed key gives the string back. */
  lemma FormatParseKey(s: string)
    requires ParseKey(s).Some?
    ensures FormatKey(ParseKey(s).value) == s
  {
    var t := FormatKey(ParseKey(s).value);
    assert |t| == |s|;
    forall i | 0 <= i < |s| ensures t[i] == s[i] {
      if i < 2 {
        assert t[i] == t[..2][i];
      } else if i >= 4 {
        assert t[i] == t[4..][i - 4];
      }
    }
  }

  predicate IsIdChar(c: char) {
    'a' <= c <= 'z' || '0' <= c <= '9'
  }

  predicate IsId(s: string) {
    forall i :: 0 <= i < |s| ==> IsIdChar(s[i])
  }

  /** ASCII lower-casing of one character. */
  function Lower(c: char): (d: char)
    ensures 'A' <= c <= 'Z' ==> 'a' <= d <= 'z'
    ensures !('A' <= c <= 'Z') ==> d == c
  {
    if 'A' <= c <= 'Z' then (c as int + 32) as char else c
  }

  /** What one display character contributes to an id: itself lower-cased when that is a
      letter or digit, nothing otherwise. */
  function IdPart(c: char): (r: string)
    ensures |r| <= 1
  {
    if IsIdChar(Lower(c)) then [Lower(c)] else []
  }

  /** The id of the first `n` characters of `s`. */
  function ToIdPrefix(s: string, n: nat): (r: string)
    requires n <= |s|
    ensures |r| <= n
  {
    if n == 0 then [] else ToIdPrefix(s, n - 1) + IdPart(s[n - 1])
  }

  /** Whatever the input, the output is an id. */
  lemma {:induction false} ToIdPrefixIsId(s: string, n: nat)
    requires n <= |s|
    ensures IsId(ToIdPrefix(s, n))
  {
    if n > 0 {
      ToIdPrefixIsId(s, n - 1);
      var r := ToIdPrefix(s, n);
      var init := ToIdPrefix(s, n - 1);
      var part := IdPart(s[n - 1]);
      forall i | 0 <= i < |r| ensures IsIdChar(r[i]) {
        if i < |init| {
          assert r[i] == init[i];
        } else {
          assert r[i] == part[i - |init|];
        }
      }
    }
  }

  /** Normalises a display name to an id: lower-cased, only letters and digits kept. */
  function ToId(s: string): (r: string)
    ensures |r| <= |s|
    ensures IsId(r)
  {
    ToIdPrefixIsId(s, |s|);
    ToIdPrefix(s, |s|)
  }

  /** The id of a prefix depends on nothing after it. */
  lemma {:induction false} ToIdPrefixLocal(s: string, t: string, n: nat)
    requires n <= |s| && n <= |t| && s[..n] == t[..n]
    ensures ToIdPrefix(s, n) == ToIdPrefix(t, n)
  {
    if n > 0 {
      assert s[n - 1] == s[..n][n - 1] == t[..n][n - 1] == t[n - 1];
      assert s[..n - 1] == s[..n][..n - 1];
      assert t[..n - 1] == t[..n][..n - 1];
      ToIdPrefixLocal(s, t, n - 1);
    }
  }

  /** On an id, every prefix normalises to itself. */
  lemma {:induction false} ToIdPrefixOfId(s: string, n: nat)
    requires IsId(s) && n <= |s|
    ensures ToIdPrefix(s, n) == s[..n]
  {
    if n > 0 {
      ToIdPrefixOfId(s, n - 1);
      assert IsIdChar(s[n - 1]) && Lower(s[n - 1]) == s[n - 1];
      assert s[..n] == s[..n - 1] + [s[n - 1]];
    }
  }

  /** An id is left as it is by normalisation. */
  lemma ToIdFixesIds(s: string)
    requires IsId(s)
    ensures ToId(s) == s
  {
    ToIdPrefixOfId(s, |s|);
  }

  /** Normalising twice is normalising once. */
  lemma ToIdIdempotent(s: string)
    ensures ToId(ToId(s)) == ToId(s)
  {
    ToIdFixesIds(ToId(s));
  }

  /** Normalising past a boundary: the id of `a` followed by the id of the part of `b` read. */
  lemma {:induction false} ToIdPrefixAppend(a: string, b: string, m: nat)
    requires m <= |b|
    ensures ToIdPrefix(a + b, |a| + m) == ToId(a) + ToIdPrefix(b, m)
  {
    if m == 0 {
      ToIdPrefixLocal(a + b, a, |a|);
    } else {
      ToIdPrefixAppend(a, b, m - 1);
      var part := IdPart(b[m - 1]);
      assert (a + b)[|a| + m - 1] == b[m - 1];
      assert ToIdPrefix(a + b, |a| + m) == (ToId(a) + ToIdPrefix(b, m - 1)) + part;
      assert ToIdPrefix(b, m) == ToIdPrefix(b, m - 1) + part;
    }
  }

  /** Normalisation works piecewise. */
  lemma ToIdAppend(a: string, b: string)
    ensures ToId(a + b) == ToId(a) + ToId(b)
  {
    ToIdPrefixAppend(a, b, |b|);
  }

  /** One character normalises to what it contributes: itself lower-cased when that is an
      ASCII letter or digit, nothing otherwise. With ToIdAppend this fixes ToId on every
      string. */
  lemma ToIdChar(c: char)
    ensures ToId([c]) == IdPart(c)
    ensures 'A' <= c <= 'Z' ==> ToId([c]) == [(c as int + 32) as char]
    ensures ('a' <= c <= 'z' || '0' <= c <= '9') ==> ToId([c]) == [c]
    ensures !('A' <= c <= 'Z' || 'a' <= c <= 'z' || '0' <= c <= '9') ==> ToId([c]) == []
  {
    assert ToIdPrefix([c], 1) == ToIdPrefix([c], 0) + IdPart([c][0]);
  }

  /** The index of the first comma among the first `n` characters of `s`; `n` when there is none. */
  function FirstComma(s: string, n: nat): (k: nat)
    requires n <= |s|
    ensures k <= n
  {
    if n == 0 then 0
    else
      var k := FirstComma(s, n - 1);
      if k < n - 1 || s[n - 1] == ',' then k else n
  }

  /** The first comma is a comma, and none comes before it. */
  lemma {:induction false} FirstCommaIsFirst(s: string, n: nat)
    requires n <= |s|
    ensures forall i :: 0 <= i < FirstComma(s, n) ==> s[i] != ','
    ensures FirstComma(s, n) < n ==> s[FirstComma(s, n)] == ','
  {
    if n > 0 {
      FirstCommaIsFirst(s, n - 1);
    }
  }

  /** The part of a string before its first comma (all of it when there is none). */
  function BeforeComma(s: string): (r: string)
    ensures r <= s
    ensures ',' !in r
    ensures |r| < |s| ==> s[|r|] == ','
  {
    FirstCommaIsFirst(s, |s|);
    s[..FirstComma(s, |s|)]
  }

  /** A details string whose first field is `x` yields `x`. */
  lemma BeforeCommaAppend(x: string, rest: string)
    requires ',' !in x
    ensures BeforeComma(x + [','] + rest) == x
  {
    var s := x + [','] + rest;
    FirstCommaIsFirst(s, |s|);
    assert s[|x|] == ',';
    assert forall i :: 0 <= i < |x| ==> s[i] == x[i];
    assert s[..|x|] == x;
  }

  /** The species of a details string "Species, L50, F": the id of its first field. */
  function SpeciesOf(details: string): (species: string)
    ensures IsId(species)
    ensures species == ToId(BeforeComma(details))
  {
    var k := FirstComma(details, |details|);
    ToIdPrefixLocal(details, details[..k], k);
    ToIdPrefixIsId(details, k);
    ToIdPrefix(details, k)
  }

  /** A details string without a comma is all species. */
  lemma SpeciesOfBareName(name: string)
    requires ',' !in name
    ensures SpeciesOf(name) == ToId(name)
  {
    FirstCommaIsFirst(name, |name|);
    assert BeforeComma(name) == name;
  }

  /** The species of "Name, more fields" is the id of "Name". */
  lemma SpeciesOfFirstField(name: string, rest: string)
    requires ',' !in name
    ensures SpeciesOf(name + [','] + rest) == ToId(name)
  {
    BeforeCommaAppend(name, rest);
  }

  /** A condition string such as "0 fnt" marks a fainted creature; "394/394" does not. */
  predicate IsFaintCondition(condition: string) {
    |condition| >= 4 && condition[|condition| - 4..] == " fnt"
  }

  /** A condition is "hp/max" or "hp status": it reads fainted exactly when the status is
      "fnt", and a bare "hp/max" never does. */
  lemma FaintCondition(hp: string, status: string)
    requires ' ' !in hp && ' ' !in status
    ensures IsFaintCondition(hp + " " + status) <==> status == "fnt"
    ensures !IsFaintCondition(hp)
  {
    var c := hp + " " + status;
    if |c| >= 4 {
      var suffix := c[|c| - 4..];
      if |status| > 3 {
        assert suffix[0] == status[|status| - 4] != " fnt"[0];
      } else if |status| < 3 {
        assert suffix[3 - |status|] == ' ' != " fnt"[3 - |status|];
      } else {
        assert suffix == " " + status && status == suffix[1..];
      }
    }
    if |hp| >= 4 {
      assert hp[|hp| - 4..][0] == hp[|hp| - 4] != ' ';
    }
  }
}

=== FILE: requests.dfy ===
/** Interpretation of a request: the structured snapshot of the own team and of
    the options of each own active slot, sent before every decision. */
module Requests {
  import opened Wrappers
  import opened Identifiers
  import opened Creatures
  import opened Battles

  /** One move of an active slot: id, remaining pp, target kind, disabled flag. */
  datatype RequestMove = RequestMove(id: string, pp: nat, target: TargetKind, disabled: bool)

  /** The options of one own active slot, in slot order. */
  datatype ActiveRequest = ActiveRequest(
    moves: seq<RequestMove>,
    trapped: bool,
    maybeTrapped: bool,
    canDynamax: bool,
    canMegaEvo: bool,
    canZMove: bool)

  /** One team member: team key ("p1: Milotic"), details, condition, active flag, move ids. */
  datatype RequestPokemon = RequestPokemon(
    key: Key,
    details: string,
    condition: string,
    active: bool,
    moves: seq<string>)

  /** A request; `forceSwitch` is empty when the request carries none. */
  datatype Request = Request(
    active: seq<ActiveRequest>,
    forceSwitch: seq<bool>,
    pokemon: seq<RequestPokemon>)

  /** What interpretation needs: at most two active entries, each matched by the
      team member at the same index, and every member named by a team key. */
  predicate WellFormedRequest(req: Request) {
    && |req.active| <= 2
    && |req.active| <= |req.pokemon|
    && forall i :: 0 <= i < |req.pokemon| ==> ValidPlayer(req.pokemon[i].key.player)
  }

  /** A move can be chosen unless it is disabled or out of pp. */
  predicate Usable(m: RequestMove) {
    !m.disabled && m.pp > 0
  }

  function RefOf(m: RequestMove): MoveRef {
    MoveRef(m.id, m.target)
  }

  /** The moves of one slot that can be chosen, in request order. */
  function UsableMoves(ms: seq<RequestMove>): (r: seq<MoveRef>)
    ensures |r| <= |ms|
    ensures forall m :: m in r <==> exists j :: 0 <= j < |ms| && Usable(ms[j]) && m == RefOf(ms[j])
    ensures (forall j :: 0 <= j < |ms| ==> Usable(ms[j])) ==>
              |r| == |ms| && forall j :: 0 <= j < |ms| ==> r[j] == RefOf(ms[j])
  {
    if ms == [] then []
    else
      var rest := UsableMoves(ms[1..]);
      assert forall j :: 1 <= j < |ms| ==> ms[j] == ms[1..][j - 1];
      if Usable(ms[0]) then [RefOf(ms[0])] + rest else rest
  }

  /** Filtering works piecewise: the usable moves of a concatenation are those of the
      first part followed by those of the second. */
  lemma {:induction false} UsableMovesAppend(xs: seq<RequestMove>, ys: seq<RequestMove>)
    ensures UsableMoves(xs + ys) == UsableMoves(xs) + UsableMoves(ys)
    decreases |xs|
  {
    if xs == [] {
      assert xs + ys == ys;
    } else {
      assert (xs + ys)[0] == xs[0];
      assert (xs + ys)[1..] == xs[1..] + ys;
      UsableMovesAppend(xs[1..], ys);
    }
  }

  /** One move is offered exactly when it is usable. */
  lemma UsableMovesSingle(m: RequestMove)
    ensures UsableMoves([m]) == if Usable(m) then [RefOf(m)] else []
  {
    assert [m][1..] == [];
  }

  /** The record agrees with the request entry on species, active flag and fainted flag. */
  predicate Reflects(rec: Pokemon, p: RequestPokemon) {
    && rec.species == SpeciesOf(p.details)
    && rec.active == p.active
    && rec.fainted == IsFaintCondition(p.condition)
  }

  /** A team member's record after the request: created on first sight, then species,
      active flag and fainted flag taken from the request, and its move ids merged. */
  function UpdateRecord(team: map<Key, Pokemon>, p: RequestPokemon): (rec: Pokemon)
    requires p.key in team ==> RecordOk(team[p.key])
    ensures RecordOk(rec)
    ensures Reflects(rec, p)
    ensures forall m :: m in p.moves ==> m in rec.moves
    ensures p.key !in team ==> forall m :: m in rec.moves <==> m in p.moves
    ensures p.key in team ==> rec.boosts == team[p.key].boosts
  {
    var prior := if p.key in team then team[p.key] else NewPokemon(SpeciesOf(p.details));
    var moves := MergeMoves(prior.moves, p.moves);
    prior.(species := SpeciesOf(p.details), active := p.active,
           fainted := IsFaintCondition(p.condition), moves := moves)
  }

  /** The keys a list of team members names. */
  function KeysOf(ps: seq<RequestPokemon>): (ks: set<Key>)
    ensures forall i :: 0 <= i < |ps| ==> ps[i].key in ks
    ensures forall k :: k in ks ==> exists i :: 0 <= i < |ps| && ps[i].key == k
    decreases |ps|
  {
    if ps == [] then {}
    else
      var init := ps[..|ps| - 1];
      assert forall i :: 0 <= i < |init| ==> ps[i] == init[i];
      KeysOf(init) + {ps[|ps| - 1].key}
  }

  /** Entry i is the last one the request gives for its key. */
  predicate LastFor(ps: seq<RequestPokemon>, i: nat)
    requires i < |ps|
  {
    forall j :: i < j < |ps| ==> ps[j].key != ps[i].key
  }

  /** Updates the registry from each team member in turn. */
  function UpdateTeam(team: map<Key, Pokemon>, ps: seq<RequestPokemon>): (r: map<Key, Pokemon>)
    requires forall k :: k in team ==> RecordOk(team[k])
    ensures forall k :: k in r ==> RecordOk(r[k])
    ensures r.Keys == team.Keys + KeysOf(ps)
    ensures forall k :: k in team && k !in KeysOf(ps) ==> r[k] == team[k]
    decreases |ps|
  {
    if ps == [] then team
    else
      var init := ps[..|ps| - 1];
      var last := ps[|ps| - 1];
      var prior := UpdateTeam(team, init);
      prior[last.key := UpdateRecord(prior, last)]
  }

  /** Dropping the final entry keeps an earlier entry the last for its key. */
  lemma LastForInit(ps: seq<RequestPokemon>, i: nat)
    requires i < |ps| - 1 && LastFor(ps, i)
    ensures LastFor(ps[..|ps| - 1], i)
  {
    var init := ps[..|ps| - 1];
    forall j | i < j < |init| ensures init[j].key != init[i].key {
      assert init[j] == ps[j];
    }
  }

  /** The registry holds, for each key, what the last request entry for it says. */
  lemma {:induction false} UpdateTeamLast(team: map<Key, Pokemon>, ps: seq<RequestPokemon>, i: nat)
    requires forall k :: k in team ==> RecordOk(team[k])
    requires i < |ps| && LastFor(ps, i)
    ensures Reflects(UpdateTeam(team, ps)[ps[i].key], ps[i])
    decreases |ps|
  {
    if i < |ps| - 1 {
      var init := ps[..|ps| - 1];
      LastForInit(ps, i);
      UpdateTeamLast(team, init, i);
      assert init[i] == ps[i];
    }
  }


  /** Request entry i fills own slot i when the events have not filled it yet and its
      creature does not already stand in the other slot. */
  function PlaceActive(s: Side, i: nat, key: Key): (r: Side)
    requires SideOk(s) && i < 2 && key in s.team
    ensures SideOk(r) && r.team == s.team
    ensures s.slots[i].None? && s.slots[1 - i] != Some(key) ==> r.slots == s.slots[i := Some(key)]
    ensures s.slots[i].Some? || s.slots[1 - i] == Some(key) ==> r == s
  {
    if s.slots[i].None? && s.slots[1 - i] != Some(key) then s.(slots := s.slots[i := Some(key)]) else s
  }

  /** Places every active entry of the request: entry 0, then entry 1. A filled slot
      keeps its occupant. */
  function PlaceActives(s: Side, req: Request): (r: Side)
    requires SideOk(s) && WellFormedRequest(req)
    requires forall i :: 0 <= i < |req.active| ==> req.pokemon[i].key in s.team
    ensures SideOk(r) && r.team == s.team
    ensures r.slots[0] ==
              if s.slots[0].None? && 0 < |req.active| && s.slots[1] != Some(req.pokemon[0].key)
              then Some(req.pokemon[0].key) else s.slots[0]
    ensures r.slots[1] ==
              if s.slots[1].None? && 1 < |req.active| && r.slots[0] != Some(req.pokemon[1].key)
              then Some(req.pokemon[1].key) else s.slots[1]
  {
    var s0 := if |req.active| > 0 then PlaceActive(s, 0, req.pokemon[0].key) else s;
    if |req.active| > 1 then PlaceActive(s0, 1, req.pokemon[1].key) else s0
  }

  /** Whether the request's team member at index i is fainted in the updated registry. */
  predicate EntryFainted(team: map<Key, Pokemon>, req: Request, i: nat)
    requires WellFormedRequest(req) && i < |req.pokemon| && KeysOf(req.pokemon) <= team.Keys
  {
    team[req.pokemon[i].key].fainted
  }

  /** The keys of a request: its first entry's and those of the rest. */
  lemma KeysOfFirst(ps: seq<RequestPokemon>)
    requires ps != []
    ensures KeysOf(ps) == {ps[0].key} + KeysOf(ps[1..])
  {
    assert forall i :: 1 <= i < |ps| ==> ps[i] == ps[1..][i - 1];
  }

  /** The options of own slot i: nothing for an absent or fainted entry; otherwise the
      slot's usable moves and the flags its request entry carries. */
  function SlotMoves(team: map<Key, Pokemon>, req: Request, i: nat): (ms: seq<MoveRef>)
    requires WellFormedRequest(req) && KeysOf(req.pokemon) <= team.Keys && i < 2
    ensures i >= |req.active| ==> ms == []
    ensures i < |req.active| && EntryFainted(team, req, i) ==> ms == []
    ensures i < |req.active| && !EntryFainted(team, req, i) ==> ms == UsableMoves(req.active[i].moves)
  {
    if i < |req.active| && !EntryFainted(team, req, i) then UsableMoves(req.active[i].moves) else []
  }

  function SlotFlagsOf(team: map<Key, Pokemon>, req: Request, i: nat): (f: SlotFlags)
    requires WellFormedRequest(req) && KeysOf(req.pokemon) <= team.Keys && i < 2
    ensures f.forceSwitch == (i < |req.forceSwitch| && req.forceSwitch[i])
    ensures (i >= |req.active| || EntryFainted(team, req, i)) ==> f == NoFlags.(forceSwitch := f.forceSwitch)
    ensures i < |req.active| && !EntryFainted(team, req, i) ==>
              var a := req.active[i];
              f == SlotFlags(a.trapped, a.maybeTrapped, f.forceSwitch, a.canDynamax, a.canMegaEvo, a.canZMove)
  {
    var force := i < |req.forceSwitch| && req.forceSwitch[i];
    if i < |req.active| && !EntryFainted(team, req, i) then
      var a := req.active[i];
      SlotFlags(a.trapped, a.maybeTrapped, force, a.canDynamax, a.canMegaEvo, a.canZMove)
    else
      NoFlags.(forceSwitch := force)
  }

  /** Team members, in request order, that may switch in: on the bench and not fainted. */
  function SwitchCandidates(team: map<Key, Pokemon>, ps: seq<RequestPokemon>): (r: seq<Key>)
    requires KeysOf(ps) <= team.Keys
    ensures forall k :: k in r <==> k in KeysOf(ps) && !team[k].active && !team[k].fainted
  {
    if ps == [] then []
    else
      var k := ps[0].key;
      KeysOfFirst(ps);
      var rest := SwitchCandidates(team, ps[1..]);
      if !team[k].active && !team[k].fainted then [k] + rest else rest
  }

  /** The legal options the request grants: a slot that is trapped offers no switch. */
  function OptionsOf(team: map<Key, Pokemon>, req: Request): (o: Options)
    requires WellFormedRequest(req) && KeysOf(req.pokemon) <= team.Keys
    ensures OptionsOk(o)
    ensures forall i :: 0 <= i < 2 ==> o.moves[i] == SlotMoves(team, req, i)
    ensures forall i :: 0 <= i < 2 ==> o.flags[i] == SlotFlagsOf(team, req, i)
    ensures forall i :: 0 <= i < 2 ==>
              o.switches[i] == if o.flags[i].trapped then [] else SwitchCandidates(team, req.pokemon)
  {
    var flags := [SlotFlagsOf(team, req, 0), SlotFlagsOf(team, req, 1)];
    var bench := SwitchCandidates(team, req.pokemon);
    Options(
      [SlotMoves(team, req, 0), SlotMoves(team, req, 1)],
      [if flags[0].trapped then [] else bench, if flags[1].trapped then [] else bench],
      flags)
  }

  /** parse_request: binds the own role from the first team member, refreshes the own
      registry, fills empty own slots from the active entries and recomputes the
      options. A request this model cannot read is rejected and changes nothing. */
  function ParseRequest(b: Battle, req: Request): (r: Result<Battle>)
    requires WellFormed(b)
    ensures r.Ok? <==> WellFormedRequest(req)
    ensures r.Ok? ==> WellFormed(r.value)
    ensures r.Ok? && |req.pokemon| > 0 ==> r.value.role == Some(req.pokemon[0].key.player)
    ensures r.Ok? && |req.pokemon| == 0 ==> r.value.role == b.role
    ensures r.Ok? ==> r.value.own.team == UpdateTeam(b.own.team, req.pokemon)
    ensures r.Ok? ==> r.value.own.team.Keys == b.own.team.Keys + KeysOf(req.pokemon)
    ensures r.Ok? ==>
              r.value.own.slots[0] ==
                if b.own.slots[0].None? && 0 < |req.active| && b.own.slots[1] != Some(req.pokemon[0].key)
                then Some(req.pokemon[0].key) else b.own.slots[0]
    ensures r.Ok? ==>
              r.value.own.slots[1] ==
                if b.own.slots[1].None? && 1 < |req.active| && r.value.own.slots[0] != Some(req.pokemon[1].key)
                then Some(req.pokemon[1].key) else b.own.slots[1]
    ensures r.Ok? ==> r.value.opp == b.opp && r.value.opponentCanDynamax == b.opponentCanDynamax
    ensures r.Ok? ==> r.value.username == b.username && r.value.turn == b.turn
    ensures r.Ok? ==> r.value.options == OptionsOf(r.value.own.team, req)
    ensures r.Ok? ==> forall i :: 0 <= i < 2 ==>
              r.value.options.moves[i] == SlotMoves(r.value.own.team, req, i)
  {
    if !WellFormedRequest(req) then Err(MalformedRequest)
    else
      var role := if |req.pokemon| > 0 then Some(req.pokemon[0].key.player) else b.role;
      var team := UpdateTeam(b.own.team, req.pokemon);
      var own := PlaceActives(Side(team, b.own.slots), req);
      Ok(b.(role := role, own := own, options := OptionsOf(team, req)))
  }

  /** Entry i is the only one the request gives for its key. */
  predicate OnlyFor(ps: seq<RequestPokemon>, i: nat)
    requires i < |ps|
  {
    forall j :: 0 <= j < |ps| && j != i ==> ps[j].key != ps[i].key
  }

  /** No key is named twice. */
  predicate DistinctKeys(ps: seq<RequestPokemon>) {
    forall i, j :: 0 <= i < j < |ps| ==> ps[i].key != ps[j].key
  }

  /** With distinct keys, every entry is the only one for its key. */
  lemma DistinctKeysOnlyFor(ps: seq<RequestPokemon>, i: nat)
    requires DistinctKeys(ps) && i < |ps|
    ensures OnlyFor(ps, i) && LastFor(ps, i)
  {
  }

  /** A request naming n distinct keys registers n creatures. */
  lemma {:induction false} KeysOfCount(ps: seq<RequestPokemon>)
    requires DistinctKeys(ps)
    ensures |KeysOf(ps)| == |ps|
    decreases |ps|
  {
    if ps != [] {
      var init := ps[..|ps| - 1];
      assert DistinctKeys(init) by {
        forall i, j | 0 <= i < j < |init| ensures init[i].key != init[j].key {
          assert init[i] == ps[i] && init[j] == ps[j];
        }
      }
      KeysOfCount(init);
      DistinctKeysOnlyFor(ps, |ps| - 1);
      OnlyForLast(ps);
    }
  }

  /** Two id lists name the same ids. */
  ghost predicate SameIds(xs: seq<string>, ys: seq<string>) {
    forall m :: m in xs <==> m in ys
  }

  /** Dropping the final entry keeps an earlier entry the only one for its key. */
  lemma OnlyForInit(ps: seq<RequestPokemon>, i: nat)
    requires i < |ps| - 1 && OnlyFor(ps, i)
    ensures OnlyFor(ps[..|ps| - 1], i)
  {
    var init := ps[..|ps| - 1];
    forall j | 0 <= j < |init| && j != i ensures init[j].key != init[i].key {
      assert init[j] == ps[j];
    }
  }

  /** The final entry, when the only one for its key, is not named before it. */
  lemma OnlyForLast(ps: seq<RequestPokemon>)
    requires |ps| > 0 && OnlyFor(ps, |ps| - 1)
    ensures ps[|ps| - 1].key !in KeysOf(ps[..|ps| - 1])
  {
    var init := ps[..|ps| - 1];
    forall j | 0 <= j < |init| ensures init[j].key != ps[|ps| - 1].key {
      assert init[j] == ps[j];
    }
  }

  /** A creature first named by the request knows exactly the request's move ids. */
  lemma {:induction false} UpdateTeamFresh(team: map<Key, Pokemon>, ps: seq<RequestPokemon>, i: nat)
    requires forall k :: k in team ==> RecordOk(team[k])
    requires i < |ps| && OnlyFor(ps, i) && ps[i].key !in team
    ensures SameIds(UpdateTeam(team, ps)[ps[i].key].moves, ps[i].moves)
    decreases |ps|
  {
    var init := ps[..|ps| - 1];
    if i < |ps| - 1 {
      OnlyForInit(ps, i);
      UpdateTeamFresh(team, init, i);
      assert init[i] == ps[i];
    } else {
      OnlyForLast(ps);
    }
  }

  /** A creature first named by the request, with at most four distinct move ids, knows
      exactly that list. */
  lemma {:induction false} UpdateTeamFreshMoves(team: map<Key, Pokemon>, ps: seq<RequestPokemon>, i: nat)
    requires forall k :: k in team ==> RecordOk(team[k])
    requires i < |ps| && OnlyFor(ps, i) && ps[i].key !in team
    requires NoRepeats(ps[i].moves) && |ps[i].moves| <= 4
    ensures UpdateTeam(team, ps)[ps[i].key].moves == ps[i].moves
    decreases |ps|
  {
    var init := ps[..|ps| - 1];
    if i < |ps| - 1 {
      OnlyForInit(ps, i);
      UpdateTeamFreshMoves(team, init, i);
      assert init[i] == ps[i];
    } else {
      OnlyForLast(ps);
      MergeMovesFresh(ps[i].moves);
    }
  }

  /** With both own slots empty, the two active entries of a request take slots a and
      b in request order, and each is then found by its key. */
  lemma RequestFillsEmptySlots(b: Battle, req: Request)
    requires WellFormed(b) && WellFormedRequest(req)
    requires b.own.slots[0].None? && b.own.slots[1].None?
    requires |req.active| == 2
    requires forall i :: 0 <= i < 2 ==>
               LastFor(req.pokemon, i) && req.pokemon[i].active && !IsFaintCondition(req.pokemon[i].condition)
    ensures ParseRequest(b, req).Ok?
    ensures ActivePokemon(ParseRequest(b, req).value) == [Some(req.pokemon[0].key), Some(req.pokemon[1].key)]
    ensures forall i :: 0 <= i < 2 ==>
              Lookup(ParseRequest(b, req).value, req.pokemon[i].key).Some?
  {
    var team := UpdateTeam(b.own.team, req.pokemon);
    UpdateTeamLast(b.own.team, req.pokemon, 0);
    UpdateTeamLast(b.own.team, req.pokemon, 1);
    var r := ParseRequest(b, req).value;
    assert r.own.team == team;
    assert Visible(r.own, 0) == Some(req.pokemon[0].key);
    assert Visible(r.own, 1) == Some(req.pokemon[1].key);
  }

  /** The move ids a list of moves names. */
  function IdsOf(ms: seq<MoveRef>): (ids: set<string>)
    ensures forall id :: id in ids <==> exists m :: m in ms && m.id == id
  {
    set m | m in ms :: m.id
  }

  /** A slot whose request entry has not fainted takes that entry's flags, and may switch
      to the benched team members unless it is trapped. */
  lemma FlagsOfLiveEntry(b: Battle, req: Request, i: nat)
    requires WellFormed(b) && WellFormedRequest(req)
    requires i < |req.active| && LastFor(req.pokemon, i)
    requires !IsFaintCondition(req.pokemon[i].condition)
    ensures ParseRequest(b, req).Ok?
    ensures var a := req.active[i];
            ParseRequest(b, req).value.options.flags[i] ==
              SlotFlags(a.trapped, a.maybeTrapped, i < |req.forceSwitch| && req.forceSwitch[i],
                        a.canDynamax, a.canMegaEvo, a.canZMove)
  {
    UpdateTeamLast(b.own.team, req.pokemon, i);
  }

  /** A slot whose request entry has not fainted offers that entry's usable moves. */
  lemma LiveSlotMoves(b: Battle, req: Request, i: nat)
    requires WellFormed(b) && WellFormedRequest(req)
    requires i < |req.active| && LastFor(req.pokemon, i)
    requires !IsFaintCondition(req.pokemon[i].condition)
    ensures ParseRequest(b, req).Ok?
    ensures ParseRequest(b, req).value.options.moves[i] == UsableMoves(req.active[i].moves)
  {
    UpdateTeamLast(b.own.team, req.pokemon, i);
    var r := ParseRequest(b, req).value;
    assert !EntryFainted(r.own.team, req, i);
  }

  /** A live slot whose moves are all usable offers them all, in request order. */
  lemma MovesOfLiveEntry(b: Battle, req: Request, i: nat)
    requires WellFormed(b) && WellFormedRequest(req)
    requires i < |req.active| && LastFor(req.pokemon, i)
    requires !IsFaintCondition(req.pokemon[i].condition)
    requires forall j :: 0 <= j < |req.active[i].moves| ==> Usable(req.active[i].moves[j])
    ensures ParseRequest(b, req).Ok?
    ensures var ms := ParseRequest(b, req).value.options.moves[i];
            && |ms| == |req.active[i].moves|
            && forall j :: 0 <= j < |ms| ==> ms[j] == RefOf(req.active[i].moves[j])
  {
    LiveSlotMoves(b, req, i);
  }

  /** A slot whose request entry has fainted offers no move. */
  lemma NoMovesForFaintedEntry(b: Battle, req: Request, i: nat)
    requires WellFormed(b) && WellFormedRequest(req)
    requires i < |req.active| && LastFor(req.pokemon, i)
    requires IsFaintCondition(req.pokemon[i].condition)
    ensures ParseRequest(b, req).Ok?
    ensures ParseRequest(b, req).value.options.moves[i] == []
  {
    UpdateTeamLast(b.own.team, req.pokemon, i);
  }

  /** A creature first named by an active entry, while its slot is empty, is shown in that
      slot after the request. */
  lemma NewEntryShown(b: Battle, req: Request, i: nat)
    requires WellFormed(b) && WellFormedRequest(req)
    requires i < |req.active| && OnlyFor(req.pokemon, i) && req.pokemon[i].key !in b.own.team
    requires b.own.slots[i].None? && req.pokemon[i].active && !IsFaintCondition(req.pokemon[i].condition)
    ensures ParseRequest(b, req).Ok?
    ensures ActivePokemon(ParseRequest(b, req).value)[i] == Some(req.pokemon[i].key)
  {
    var ps := req.pokemon;
    assert LastFor(ps, i);
    UpdateTeamLast(b.own.team, ps, i);
    var r := ParseRequest(b, req).value;
    if i == 1 {
      assert r.own.slots[0] != Some(ps[1].key) by {
        if r.own.slots[0] == b.own.slots[0] {
          assert b.own.slots[0].Some? ==> b.own.slots[0].value in b.own.team;
        } else {
          assert ps[0].key != ps[1].key;
        }
      }
    } else {
      assert b.own.slots[1].Some? ==> b.own.slots[1].value in b.own.team;
    }
    assert r.own.slots[i] == Some(ps[i].key);
  }

  /** When a slot is empty and the request seats in it a creature whose entry offers
      exactly the moves the creature lists, all of them usable, the slot's available
      moves are the move set of the creature shown in it. */
  lemma AvailableMovesAreMoveSet(b: Battle, req: Request, i: nat)
    requires WellFormed(b) && WellFormedRequest(req)
    requires i < |req.active| && OnlyFor(req.pokemon, i) && req.pokemon[i].key !in b.own.team
    requires b.own.slots[i].None? && req.pokemon[i].active
    requires !IsFaintCondition(req.pokemon[i].condition)
    requires forall j :: 0 <= j < |req.active[i].moves| ==> Usable(req.active[i].moves[j])
    requires |req.active[i].moves| == |req.pokemon[i].moves|
    requires forall j :: 0 <= j < |req.active[i].moves| ==> req.active[i].moves[j].id == req.pokemon[i].moves[j]
    ensures ParseRequest(b, req).Ok?
    ensures ActivePokemon(ParseRequest(b, req).value)[i] == Some(req.pokemon[i].key)
    ensures var r := ParseRequest(b, req).value;
            forall id :: id in IdsOf(r.options.moves[i]) <==> id in r.own.team[ActivePokemon(r)[i].value].moves
  {
    var ps := req.pokemon;
    var ms := req.active[i].moves;
    assert LastFor(ps, i);
    NewEntryShown(b, req, i);
    MovesOfLiveEntry(b, req, i);
    assert forall j :: 0 <= j < |ms| ==> RefOf(ms[j]).id == ps[i].moves[j];
    UpdateTeamFresh(b.own.team, ps, i);
    IdsOfMatching(ParseRequest(b, req).value.options.moves[i], ps[i].moves);
  }

  /** Moves that carry, position by position, the ids of a list carry the same set of ids. */
  lemma IdsOfMatching(offered: seq<MoveRef>, ids: seq<string>)
    requires |offered| == |ids| && forall j :: 0 <= j < |ids| ==> offered[j].id == ids[j]
    ensures forall id :: id in IdsOf(offered) <==> id in ids
  {
    forall id | id in ids ensures id in IdsOf(offered) {
      var j :| 0 <= j < |ids| && ids[j] == id;
      assert offered[j] in offered;
    }
  }
}

=== FILE: scenarios.dfy ===
/** The behaviour the double-battle unit tests pin down, replayed on the model.
    Each lemma follows one test; the larger ones are split into steps whose
    postconditions hand the reached state to the next step. */
module Scenarios {
  import opened Wrappers
  import opened Identifiers
  import opened Creatures
  import opened Battles
  import opened Requests
  import opened Targeting
  import opened Events

  // ---------------------------------------------------------------------------
  // Species normalisation of the detail strings the tests use

  /** The species of "Name, fields" is the id of Name. */
  lemma SpeciesFromName(details: string, name: string, rest: string, id: string)
    requires details == name + [','] + rest && ',' !in name
    requires ToId(name) == id
    ensures SpeciesOf(details) == id
  {
    SpeciesOfFirstField(name, rest);
  }

  lemma SpeciesMiloticL50()
    ensures SpeciesOf("Milotic, L50, F") == "milotic"
  {
    assert ToIdPrefix("Milotic", 7) == "milotic";
    SpeciesFromName("Milotic, L50, F", "Milotic", " L50, F", "milotic");
  }

  lemma SpeciesMilotic()
    ensures SpeciesOf("Milotic, F") == "milotic"
  {
    assert ToIdPrefix("Milotic", 7) == "milotic";
    SpeciesFromName("Milotic, F", "Milotic", " F", "milotic");
  }

  lemma SpeciesTyranitar()
    ensures SpeciesOf("Tyranitar, L50, M") == "tyranitar"
  {
    assert ToIdPrefix("Tyranitar", 9) == "tyranitar";
    SpeciesFromName("Tyranitar, L50, M", "Tyranitar", " L50, M", "tyranitar");
  }

  lemma SpeciesThundurus()
    ensures SpeciesOf("Thundurus, L82, M") == "thundurus"
  {
    assert ToIdPrefix("Thundurus", 9) == "thundurus";
    SpeciesFromName("Thundurus, L82, M", "Thundurus", " L82, M", "thundurus");
  }

  lemma SpeciesMaractus()
    ensures SpeciesOf("Maractus, L93, M") == "maractus"
  {
    assert ToIdPrefix("Maractus", 8) == "maractus";
    SpeciesFromName("Maractus, L93, M", "Maractus", " L93, M", "maractus");
  }

  /** A hyphenated forme name loses its hyphen: "Raichu-Alola" is "raichualola". */
  lemma IdRaichuAlola()
    ensures ToId("Raichu" + "-Alola") == "raichualola"
  {
    assert ToIdPrefix("Raichu", 6) == "raichu";
    assert ToIdPrefix("-Alola", 6) == "alola";
    ToIdAppend("Raichu", "-Alola");
    assert "raichu" + "alola" == "raichualola";
  }

  lemma SpeciesRaichuAlola()
    ensures SpeciesOf("Raichu-Alola, L88, F") == "raichualola"
  {
    IdRaichuAlola();
    assert "Raichu-Alola, L88, F" == ("Raichu" + "-Alola") + [','] + " L88, F";
    SpeciesFromName("Raichu-Alola, L88, F", "Raichu" + "-Alola", " L88, F", "raichualola");
  }

  lemma IdZamazenta()
    ensures ToId("Zamazenta") == "zamazenta"
  {
    assert ToIdPrefix("Zamazenta", 9) == "zamazenta";
  }

  lemma IdCrowned()
    ensures ToId("-Crowned") == "crowned"
  {
    assert ToIdPrefix("-Crowned", 8) == "crowned";
  }

  lemma IdZamazentaCrowned()
    ensures ToId("Zamazenta" + "-Crowned") == "zamazentacrowned"
  {
    IdZamazenta();
    IdCrowned();
    ToIdAppend("Zamazenta", "-Crowned");
    assert "zamazenta" + "crowned" == "zamazentacrowned";
  }

  lemma SpeciesZamazentaCrowned()
    ensures SpeciesOf("Zamazenta-Crowned, L70") == "zamazentacrowned"
  {
    IdZamazentaCrowned();
    assert "Zamazenta-Crowned, L70" == ("Zamazenta" + "-Crowned") + [','] + " L70";
    SpeciesFromName("Zamazenta-Crowned, L70", "Zamazenta" + "-Crowned", " L70", "zamazentacrowned");
  }

  // ---------------------------------------------------------------------------
  // The doubles request the first four tests start from. Its exact text is not
  // part of this model; this one carries everything those tests read from it.

  const MrRime := Key("p1", "Mr. Rime")
  const Klinklang := Key("p1", "Klinklang")
  const Zamazenta := Key("p1", "Zamazenta")
  const Thundurus := Key("p1", "Thundurus")
  const Raichu := Key("p1", "Raichu")
  const Maractus := Key("p1", "Maractus")

  const Psychic := RequestMove("psychic", 16, AnySingle, false)
  const SlackOff := RequestMove("slackoff", 8, SelfOnly, false)
  const GearGrind := RequestMove("geargrind", 24, AnySingle, false)
  const ShiftGear := RequestMove("shiftgear", 16, SelfOnly, false)

  const ZamazentaMoves := ["closecombat", "crunch", "psychicfangs", "behemothbash"]

  function DoublesRequest(): Request {
    Request(
      [ActiveRequest([Psychic, SlackOff], false, false, true, false, false),
       ActiveRequest([GearGrind, ShiftGear], false, false, true, false, false)],
      [],
      [RequestPokemon(MrRime, "Mr. Rime, L82, M", "277/277", true, ["psychic", "slackoff"]),
       RequestPokemon(Klinklang, "Klinklang, L84", "245/245", true, ["geargrind", "shiftgear"]),
       RequestPokemon(Zamazenta, "Zamazenta-Crowned, L70", "255/255", false, ZamazentaMoves),
       RequestPokemon(Thundurus, "Thundurus, L82, M", "250/250", false, ["thunderbolt"]),
       RequestPokemon(Raichu, "Raichu-Alola, L88, F", "240/240", false, ["psychic"]),
       RequestPokemon(Maractus, "Maractus, L93, M", "290/290", false, ["gigadrain"])])
  }

  lemma DoublesRequestShape()
    ensures WellFormedRequest(DoublesRequest())
    ensures DistinctKeys(DoublesRequest().pokemon)
    ensures forall i :: 0 <= i < 6 ==> !IsFaintCondition(DoublesRequest().pokemon[i].condition)
  {
  }

  // ---------------------------------------------------------------------------
  // test_battle_request_parsing

  /** The doubles request, read by a battle whose own team is still empty. */
  function AfterRequest(b: Battle): (r: Battle)
    requires WellFormed(b) && |b.own.team| == 0
    ensures WellFormed(r)
  {
    DoublesRequestShape();
    ParseRequest(b, DoublesRequest()).value
  }

  lemma RequestRegistersSix(b: Battle)
    requires WellFormed(b) && |b.own.team| == 0
    ensures |AfterRequest(b).own.team| == 6
  {
    var ps := DoublesRequest().pokemon;
    DoublesRequestShape();
    KeysOfCount(ps);
  }

  /** Team member i of the doubles request is registered under its key with the species
      its details give. */
  lemma RegisteredSpecies(b: Battle, i: nat, id: string)
    requires WellFormed(b) && |b.own.team| == 0
    requires i < 6 && SpeciesOf(DoublesRequest().pokemon[i].details) == id
    ensures DoublesRequest().pokemon[i].key in AfterRequest(b).own.team
    ensures AfterRequest(b).own.team[DoublesRequest().pokemon[i].key].species == id
  {
    var ps := DoublesRequest().pokemon;
    DoublesRequestShape();
    DistinctKeysOnlyFor(ps, i);
    UpdateTeamLast(b.own.team, ps, i);
  }

  lemma RequestSpecies(b: Battle)
    requires WellFormed(b) && |b.own.team| == 0
    ensures Thundurus in AfterRequest(b).own.team && AfterRequest(b).own.team[Thundurus].species == "thundurus"
    ensures Raichu in AfterRequest(b).own.team && AfterRequest(b).own.team[Raichu].species == "raichualola"
    ensures Maractus in AfterRequest(b).own.team && AfterRequest(b).own.team[Maractus].species == "maractus"
    ensures Zamazenta in AfterRequest(b).own.team && AfterRequest(b).own.team[Zamazenta].species == "zamazentacrowned"
  {
    SpeciesThundurus();
    RegisteredSpecies(b, 3, "thundurus");
    SpeciesRaichuAlola();
    RegisteredSpecies(b, 4, "raichualola");
    SpeciesMaractus();
    RegisteredSpecies(b, 5, "maractus");
    SpeciesZamazentaCrowned();
    RegisteredSpecies(b, 2, "zamazentacrowned");
  }

  lemma ZamazentaMovesDistinct()
    ensures NoRepeats(ZamazentaMoves) && |ZamazentaMoves| == 4
  {
  }

  /** Team member i of the doubles request knows exactly the moves its entry lists. */
  lemma RegisteredMoves(b: Battle, i: nat)
    requires WellFormed(b) && |b.own.team| == 0 && i < 6
    requires NoRepeats(DoublesRequest().pokemon[i].moves) && |DoublesRequest().pokemon[i].moves| <= 4
    ensures DoublesRequest().pokemon[i].key in AfterRequest(b).own.team
    ensures AfterRequest(b).own.team[DoublesRequest().pokemon[i].key].moves == DoublesRequest().pokemon[i].moves
  {
    var ps := DoublesRequest().pokemon;
    DoublesRequestShape();
    DistinctKeysOnlyFor(ps, i);
    UpdateTeamLast(b.own.team, ps, i);
    UpdateTeamFreshMoves(b.own.team, ps, i);
  }

  lemma ZamazentaMovesRegistered(b: Battle)
    requires WellFormed(b) && |b.own.team| == 0
    ensures Zamazenta in AfterRequest(b).own.team
    ensures AfterRequest(b).own.team[Zamazenta].moves == ZamazentaMoves
  {
    ZamazentaMovesDistinct();
    RegisteredMoves(b, 2);
  }

  lemma FormatZamazenta()
    ensures FormatKey(Zamazenta) == "p1: Zamazenta"
  {
  }

  /** get_pokemon("p1: Zamazenta") finds the record, which knows exactly four moves. */
  lemma ZamazentaKnowsFourMoves(b: Battle)
    requires WellFormed(b) && |b.own.team| == 0
    ensures GetPokemon(AfterRequest(b), "p1: Zamazenta").Some?
    ensures GetPokemon(AfterRequest(b), "p1: Zamazenta").value.moves == ZamazentaMoves
    ensures |GetPokemon(AfterRequest(b), "p1: Zamazenta").value.moves| == 4
  {
    ZamazentaMovesRegistered(b);
    ZamazentaMovesDistinct();
    GetPokemonByKey(AfterRequest(b), Zamazenta);
    FormatZamazenta();
  }

  // ---------------------------------------------------------------------------
  // test_battle_request_parsing_and_interactions

  /** A battle nothing has happened in yet. */
  predicate Fresh(b: Battle) {
    && WellFormed(b) && |b.own.team| == 0
    && b.own.slots[0].None? && b.own.slots[1].None?
    && b.opp.slots[0].None? && b.opp.slots[1].None?
    && b.opponentCanDynamax[0] && b.opponentCanDynamax[1]
  }

  lemma NewBattleIsFresh(user: string)
    ensures Fresh(NewBattle(user))
  {
  }

  /** What the opponent side looks like: nothing seen, both slots able to dynamax. */
  predicate OpponentUnseen(b: Battle)
    requires WellFormed(b)
  {
    && b.opp.slots[0].None? && b.opp.slots[1].None?
    && b.opponentCanDynamax[0] && b.opponentCanDynamax[1]
  }

  /** The state the doubles request leaves: Mr. Rime in slot a, Klinklang in slot b,
      nothing seen of the opponent. */
  predicate Requested(b: Battle) {
    && WellFormed(b) && b.role == Some("p1")
    && Visible(b.own, 0) == Some(MrRime) && Visible(b.own, 1) == Some(Klinklang)
    && OpponentUnseen(b)
  }

  /** The request binds the player role and leaves the opponent untouched. */
  lemma RequestKeepsOpponent(b: Battle)
    requires Fresh(b)
    ensures AfterRequest(b).role == Some("p1") && OpponentUnseen(AfterRequest(b))
  {
    DoublesRequestShape();
  }

  /** The two active entries take the two empty slots in request order. */
  lemma RequestFillsOwnSlots(b: Battle)
    requires Fresh(b)
    ensures Visible(AfterRequest(b).own, 0) == Some(MrRime)
    ensures Visible(AfterRequest(b).own, 1) == Some(Klinklang)
  {
    var req := DoublesRequest();
    DoublesRequestShape();
    DistinctKeysOnlyFor(req.pokemon, 0);
    DistinctKeysOnlyFor(req.pokemon, 1);
    RequestFillsEmptySlots(b, req);
  }

  lemma RequestFillsSlots(b: Battle)
    requires Fresh(b)
    ensures Requested(AfterRequest(b))
  {
    RequestKeepsOpponent(b);
    RequestFillsOwnSlots(b);
  }

  /** active_pokemon, all_active_pokemons and get_pokemon agree after the request. */
  lemma ActiveAfterRequest(b: Battle)
    requires Requested(b)
    ensures ActivePokemon(b) == [Some(MrRime), Some(Klinklang)]
    ensures AllActivePokemons(b) == [Some(MrRime), Some(Klinklang), None, None]
    ensures GetPokemon(b, "p1: Mr. Rime") == Some(b.own.team[MrRime])
    ensures GetPokemon(b, "p1: Klinklang") == Some(b.own.team[Klinklang])
  {
    GetPokemonByKey(b, MrRime);
    GetPokemonByKey(b, Klinklang);
    assert FormatKey(MrRime) == "p1: Mr. Rime";
    assert FormatKey(Klinklang) == "p1: Klinklang";
  }

  /** available_moves[i] names the moves of the creature active_pokemon[i] shows. */
  lemma AvailableMovesMatchMoveSets(b: Battle, i: nat)
    requires Fresh(b) && i < 2
    ensures ActivePokemon(AfterRequest(b))[i].Some?
    ensures forall id :: id in IdsOf(AfterRequest(b).options.moves[i]) <==>
              id in AfterRequest(b).own.team[ActivePokemon(AfterRequest(b))[i].value].moves
  {
    var req := DoublesRequest();
    DoublesRequestShape();
    DistinctKeysOnlyFor(req.pokemon, i);
    AvailableMovesAreMoveSet(b, req, i);
  }

  /** Active entry i has not fainted, so its slot takes the flags the request gives it. */
  lemma SlotFlagsAfterRequest(b: Battle, i: nat)
    requires WellFormed(b) && |b.own.team| == 0 && i < 2
    ensures AfterRequest(b).options.flags[i] == SlotFlags(false, false, false, true, false, false)
  {
    var req := DoublesRequest();
    DoublesRequestShape();
    DistinctKeysOnlyFor(req.pokemon, i);
    FlagsOfLiveEntry(b, req, i);
  }

  /** Both slots may dynamax; nothing is trapped, forced out, or able to mega evolve or
      use a z-move; each slot has a switch list. */
  lemma FlagsAfterRequest(b: Battle)
    requires WellFormed(b) && |b.own.team| == 0
    ensures |AfterRequest(b).options.switches| == 2
    ensures AfterRequest(b).options.flags[0] == SlotFlags(false, false, false, true, false, false)
    ensures AfterRequest(b).options.flags[1] == SlotFlags(false, false, false, true, false, false)
  {
    SlotFlagsAfterRequest(b, 0);
    SlotFlagsAfterRequest(b, 1);
  }

  const MrRimeBoosts := map[Accuracy := -2, Atk := 1, Def := -6, Evasion := 4, Spa := -4, Spd := 2, Spe := 3]
  const KlinklangBoosts := map[Accuracy := -6, Atk := 6, Def := -1, Evasion := 1, Spa := 4, Spd := -3, Spe := 2]

  /** The test assigns boost stages directly to a registered creature. */
  function WithBoosts(b: Battle, k: Key, boosts: Boosts): (r: Battle)
    requires WellFormed(b) && k in b.own.team && FullBoosts(boosts)
    ensures WellFormed(r) && r.own.slots == b.own.slots && r.own.team.Keys == b.own.team.Keys
    ensures r.own.team[k].boosts == boosts
    ensures forall j :: j in b.own.team ==> r.own.team[j].(boosts := b.own.team[j].boosts) == b.own.team[j]
    ensures forall j :: j in b.own.team && j != k ==> r.own.team[j] == b.own.team[j]
    ensures r.opp == b.opp && r.role == b.role && r.opponentCanDynamax == b.opponentCanDynamax
  {
    b.(own := b.own.(team := b.own.team[k := b.own.team[k].(boosts := boosts)]))
  }

  lemma TestBoostsAreFull()
    ensures FullBoosts(MrRimeBoosts) && FullBoosts(KlinklangBoosts)
  {
    CoversAllStats(MrRimeBoosts);
    CoversAllStats(KlinklangBoosts);
  }

  /** The battle after the test sets the stages of both actives. */
  function Boosted(b: Battle): (r: Battle)
    requires Requested(b)
    ensures Requested(r)
    ensures r.own.team[MrRime].boosts == MrRimeBoosts && r.own.team[Klinklang].boosts == KlinklangBoosts
  {
    TestBoostsAreFull();
    WithBoosts(WithBoosts(b, MrRime, MrRimeBoosts), Klinklang, KlinklangBoosts)
  }

  /** Whatever stages were set, clear_all_boosts puts all seven back to 0 on both actives
      and leaves them where they stand. */
  lemma ClearAllBoostsAfterRequest(b: Battle)
    requires Requested(b)
    ensures ClearAllBoosts(Boosted(b)).own.team[MrRime].boosts == ZeroBoosts
    ensures ClearAllBoosts(Boosted(b)).own.team[Klinklang].boosts == ZeroBoosts
    ensures ActivePokemon(ClearAllBoosts(Boosted(b))) == [Some(MrRime), Some(Klinklang)]
    ensures Requested(ClearAllBoosts(Boosted(b)))
  {
    ClearAllBoostsZeroesOwn(Boosted(b), MrRime);
    ClearAllBoostsZeroesOwn(Boosted(b), Klinklang);
  }

  // ---------------------------------------------------------------------------
  // Identifiers and conditions the replays read

  /** An identifier that formats a position parses back to it. */
  lemma Names(ident: string, pos: Position)
    requires ValidPosition(pos) && FormatPosition(pos) == ident
    ensures ParsePosition(ident) == Some(pos)
  {
    ParseFormat(pos);
  }

  lemma NamesKlinklangB()
    ensures ParsePosition("p1b: Klinklang") == Some(Position("p1", 1, "Klinklang"))
  {
    Names("p1b: Klinklang", Position("p1", 1, "Klinklang"));
  }

  lemma NamesMiloticA()
    ensures ParsePosition("p2a: Milotic") == Some(Position("p2", 0, "Milotic"))
  {
    Names("p2a: Milotic", Position("p2", 0, "Milotic"));
  }

  lemma NamesTyranitarB()
    ensures ParsePosition("p2b: Tyranitar") == Some(Position("p2", 1, "Tyranitar"))
  {
    Names("p2b: Tyranitar", Position("p2", 1, "Tyranitar"));
  }

  lemma HealthyFortyEight()
    ensures !IsFaintCondition("48/48")
  {
  }

  // ---------------------------------------------------------------------------
  // The swap event and the opponent's switches

  /** The battle after the event ["swap", "p1b: Klinklang", ""]. */
  function Swapped(b: Battle): (r: Battle)
    requires Requested(b)
    ensures ApplyEvent(b, SwapEvent("p1b: Klinklang", "")) == Ok(r)
    ensures WellFormed(r) && r.role == Some("p1") && OpponentUnseen(r)
  {
    NamesKlinklangB();
    ApplyEvent(b, SwapEvent("p1b: Klinklang", "")).value
  }

  /** A swap naming no slot exchanges the two actives. */
  lemma SwapExchangesActives(b: Battle)
    requires Requested(b)
    ensures ActivePokemon(Swapped(b)) == [Some(Klinklang), Some(MrRime)]
  {
    NamesKlinklangB();
  }

  /** A healthy opponent switching in at `pos` is shown there under the species its
      details give; the other slot, the own side and the dynamax flags stay as they were. */
  lemma OpponentSwitchIn(b: Battle, ident: string, pos: Position, details: string, id: string)
    requires WellFormed(b) && b.role == Some("p1")
    requires ParsePosition(ident) == Some(pos) && pos.player == "p2" && SpeciesOf(details) == id
    ensures ApplyEvent(b, SwitchEvent(ident, details, "48/48")).Ok?
    ensures var r := ApplyEvent(b, SwitchEvent(ident, details, "48/48")).value;
            && r.role == b.role && r.own == b.own && r.opponentCanDynamax == b.opponentCanDynamax
            && Visible(r.opp, pos.slot) == Some(KeyOf(pos))
            && r.opp.team[KeyOf(pos)].species == id
            && (b.opp.slots[1 - pos.slot] != Some(KeyOf(pos)) ==> r.opp.slots[1 - pos.slot] == b.opp.slots[1 - pos.slot])
            && (Visible(b.opp, 1 - pos.slot) != Some(KeyOf(pos)) ==>
                  Visible(r.opp, 1 - pos.slot) == Visible(b.opp, 1 - pos.slot))
  {
    HealthyFortyEight();
  }

  const OppMilotic := Key("p2", "Milotic")
  const OppTyranitar := Key("p2", "Tyranitar")

  /** The battle after the opponent sends out Milotic in slot a. */
  function MiloticIn(b: Battle): (r: Battle)
    requires WellFormed(b) && b.role == Some("p1")
    ensures WellFormed(r) && r.role == b.role && r.own == b.own
    ensures r.opponentCanDynamax == b.opponentCanDynamax
    ensures Visible(r.opp, 0) == Some(OppMilotic) && r.opp.team[OppMilotic].species == "milotic"
    ensures b.opp.slots[1] != Some(OppMilotic) ==> r.opp.slots[1] == b.opp.slots[1]
    ensures Visible(b.opp, 1) != Some(OppMilotic) ==> Visible(r.opp, 1) == Visible(b.opp, 1)
  {
    NamesMiloticA();
    SpeciesMiloticL50();
    OpponentSwitchIn(b, "p2a: Milotic", Position("p2", 0, "Milotic"), "Milotic, L50, F", "milotic");
    ApplyEvent(b, SwitchEvent("p2a: Milotic", "Milotic, L50, F", "48/48")).value
  }

  /** The battle after the opponent sends out Tyranitar in slot b. */
  function TyranitarIn(b: Battle): (r: Battle)
    requires WellFormed(b) && b.role == Some("p1")
    ensures WellFormed(r) && r.role == b.role && r.own == b.own
    ensures r.opponentCanDynamax == b.opponentCanDynamax
    ensures Visible(r.opp, 1) == Some(OppTyranitar) && r.opp.team[OppTyranitar].species == "tyranitar"
    ensures b.opp.slots[0] != Some(OppTyranitar) ==> r.opp.slots[0] == b.opp.slots[0]
    ensures Visible(b.opp, 0) != Some(OppTyranitar) ==> Visible(r.opp, 0) == Visible(b.opp, 0)
    ensures BystandersKept(b.opp, r.opp, OppTyranitar, 1)
  {
    NamesTyranitarB();
    SpeciesTyranitar();
    OpponentSwitchIn(b, "p2b: Tyranitar", Position("p2", 1, "Tyranitar"), "Tyranitar, L50, M", "tyranitar");
    ApplyEvent(b, SwitchEvent("p2b: Tyranitar", "Tyranitar, L50, M", "48/48")).value
  }

  /** Milotic then Tyranitar, on any side still unseen: both shown, species normalised,
      the opponent still presumed able to dynamax in both slots, the own side as it was. */
  lemma OpponentPairShown(b: Battle)
    requires WellFormed(b) && b.role == Some("p1") && OpponentUnseen(b)
    ensures OpponentActivePokemon(TyranitarIn(MiloticIn(b))) == [Some(OppMilotic), Some(OppTyranitar)]
    ensures TyranitarIn(MiloticIn(b)).opp.team[OppMilotic].species == "milotic"
    ensures TyranitarIn(MiloticIn(b)).opp.team[OppTyranitar].species == "tyranitar"
    ensures TyranitarIn(MiloticIn(b)).opponentCanDynamax[0] && TyranitarIn(MiloticIn(b)).opponentCanDynamax[1]
    ensures TyranitarIn(MiloticIn(b)).own == b.own
  {
    var m := MiloticIn(b);
    var t := TyranitarIn(m);
    assert m.opp.slots[1].None?;
    assert t.opp.team[OppMilotic] == m.opp.team[OppMilotic];
  }

  /** The tail of the interactions test: after the stages are cleared and the swap, the
      opponent sends out Milotic and Tyranitar; both are shown with their species, the
      opponent may still dynamax, and the own actives stay swapped. */
  lemma SwapThenOpponentPair(b: Battle)
    requires Requested(b)
    ensures var s := Swapped(ClearAllBoosts(Boosted(b)));
            var t := TyranitarIn(MiloticIn(s));
            && ActivePokemon(s) == [Some(Klinklang), Some(MrRime)]
            && OpponentActivePokemon(t) == [Some(OppMilotic), Some(OppTyranitar)]
            && t.opp.team[OppMilotic].species == "milotic"
            && t.opp.team[OppTyranitar].species == "tyranitar"
            && t.opponentCanDynamax[0] && t.opponentCanDynamax[1]
            && ActivePokemon(t) == [Some(Klinklang), Some(MrRime)]
  {
    var c := ClearAllBoosts(Boosted(b));
    ClearAllBoostsAfterRequest(b);
    SwapExchangesActives(c);
    OpponentPairShown(Swapped(c));
  }

  // ---------------------------------------------------------------------------
  // test_get_possible_showdown_targets

  const PsychicRef := MoveRef("psychic", AnySingle)
  const SlackOffRef := MoveRef("slackoff", SelfOnly)

  /** Mr. Rime's moves as the request offers them. */
  lemma MrRimeMoveRefs(b: Battle)
    requires Fresh(b)
    ensures |AfterRequest(b).options.moves[0]| == 2
    ensures AfterRequest(b).options.moves[0][0] == PsychicRef
    ensures AfterRequest(b).options.moves[0][1] == SlackOffRef
  {
    var req := DoublesRequest();
    DoublesRequestShape();
    DistinctKeysOnlyFor(req.pokemon, 0);
    MovesOfLiveEntry(b, req, 0);
  }

  /** Mr. Rime shown in slot a with the ally slot b filled. */
  predicate MrRimeLeads(t: Battle) {
    WellFormed(t) && Visible(t.own, 0) == Some(MrRime) && Visible(t.own, 1).Some?
  }

  /** With only Tyranitar shown in the opponent's slot b, a single-target move of
      Mr. Rime may aim at the ally (-2) or at Tyranitar (2). */
  lemma TargetsWithOneFoe(t: Battle)
    requires MrRimeLeads(t) && Visible(t.opp, 0).None? && Visible(t.opp, 1).Some?
    ensures PossibleTargets(t, PsychicRef, MrRime, false) == Ok([-2, 2])
  {
    assert UserSlot(t.own, MrRime) == Some(0);
    assert PossibleTargets(t, PsychicRef, MrRime, false).value == [OwnCode(1)] + [OppCode(1)];
    assert PossibleTargets(t, PsychicRef, MrRime, false).value == [-2, 2];
  }

  /** With both foes shown: [-2, 1, 2]; dynamaxed, the ally is dropped. */
  lemma TargetsWithTwoFoes(t: Battle)
    requires MrRimeLeads(t) && Visible(t.opp, 0).Some? && Visible(t.opp, 1).Some?
    ensures PossibleTargets(t, PsychicRef, MrRime, false) == Ok([-2, 1, 2])
    ensures PossibleTargets(t, PsychicRef, MrRime, true) == Ok([1, 2])
  {
    assert UserSlot(t.own, MrRime) == Some(0);
    assert PossibleTargets(t, PsychicRef, MrRime, false).value == [OwnCode(1)] + [OppCode(0), OppCode(1)];
    assert PossibleTargets(t, PsychicRef, MrRime, false).value == [-2, 1, 2];
    assert PossibleTargets(t, PsychicRef, MrRime, true).value == [] + [OppCode(0), OppCode(1)];
    assert PossibleTargets(t, PsychicRef, MrRime, true).value == [1, 2];
  }

  /** A move aimed at its user takes [0], dynamaxed or not. */
  lemma SelfTargetTakesZero(t: Battle)
    requires MrRimeLeads(t)
    ensures PossibleTargets(t, SlackOffRef, MrRime, false) == Ok([0])
    ensures PossibleTargets(t, SlackOffRef, MrRime, true) == Ok([0])
  {
  }

  /** The replay: Tyranitar enters, then Milotic. */
  lemma PossibleTargetsReplay(b: Battle)
    requires Requested(b)
    ensures PossibleTargets(TyranitarIn(b), PsychicRef, MrRime, false) == Ok([-2, 2])
    ensures PossibleTargets(MiloticIn(TyranitarIn(b)), PsychicRef, MrRime, false) == Ok([-2, 1, 2])
    ensures PossibleTargets(MiloticIn(TyranitarIn(b)), SlackOffRef, MrRime, false) == Ok([0])
    ensures PossibleTargets(MiloticIn(TyranitarIn(b)), PsychicRef, MrRime, true) == Ok([1, 2])
    ensures PossibleTargets(MiloticIn(TyranitarIn(b)), SlackOffRef, MrRime, true) == Ok([0])
  {
    var t := TyranitarIn(b);
    TargetsWithOneFoe(t);
    TargetsWithTwoFoes(MiloticIn(t));
    SelfTargetTakesZero(MiloticIn(t));
  }

  // ---------------------------------------------------------------------------
  // test_to_showdown_target

  /** Klinklang, Mr. Rime's ally in slot b, is -2; an unseen opponent and any target of a
      move aimed at its user are 0. */
  lemma ShowdownTargetsAfterRequest(b: Battle)
    requires Requested(b)
    ensures ToShowdownTarget(b, PsychicRef, Some(Klinklang)) == -2
    ensures OpponentActivePokemon(b) == [None, None]
    ensures ToShowdownTarget(b, PsychicRef, OpponentActivePokemon(b)[0]) == 0
    ensures ToShowdownTarget(b, SlackOffRef, Some(MrRime)) == 0
    ensures ToShowdownTarget(b, SlackOffRef, None) == 0
  {
  }

  // ---------------------------------------------------------------------------
  // test_end_illusion

  const Celebi := Key("p2", "Celebi")
  const Ferrothorn := Key("p2", "Ferrothorn")
  const Zoroark := Key("p2", "Zoroark")

  /** Seen from p2: Celebi is sent out in slot a. */
  function CelebiIn(b: Battle): (r: Battle)
    requires Fresh(b)
    ensures WellFormed(r) && r.role == Some("p2")
    ensures Visible(r.own, 0) == Some(Celebi) && r.own.slots[1].None?
    ensures r.own.team.Keys == {Celebi}
  {
    Switch(b.(role := Some("p2")), Position("p2", 0, "Celebi"), "Celebi", IsFaintCondition("100/100"))
  }

  /** Then Ferrothorn in slot b. */
  function FerrothornIn(b: Battle): (r: Battle)
    requires WellFormed(b) && b.role == Some("p2")
    requires Visible(b.own, 0) == Some(Celebi) && b.own.slots[1].None?
    ensures WellFormed(r) && r.role == b.role
    ensures Visible(r.own, 0) == Some(Celebi) && Visible(r.own, 1) == Some(Ferrothorn)
    ensures r.own.team.Keys == b.own.team.Keys + {Ferrothorn}
  {
    Switch(b, Position("p2", 1, "Ferrothorn"), "Ferrothorn, M", IsFaintCondition("100/100"))
  }

  /** Then Pelipper and Kingdra on the other side; the own side is untouched. */
  function OppPairIn(b: Battle): (r: Battle)
    requires WellFormed(b) && b.role == Some("p2")
    ensures WellFormed(r) && r.role == b.role && r.own == b.own
    ensures IllusionReady(b) ==> IllusionReady(r)
  {
    var b1 := Switch(b, Position("p1", 0, "Pelipper"), "Pelipper, F", IsFaintCondition("100/100"));
    Switch(b1, Position("p1", 1, "Kingdra"), "Kingdra, F", IsFaintCondition("100/100"))
  }

  /** Celebi and Ferrothorn shown on the own side, Zoroark not yet registered. */
  predicate IllusionReady(b: Battle) {
    && WellFormed(b) && b.role == Some("p2")
    && Visible(b.own, 0) == Some(Celebi) && Visible(b.own, 1) == Some(Ferrothorn)
    && Zoroark !in b.own.team
  }

  lemma IllusionSetUp(b: Battle)
    requires Fresh(b)
    ensures IllusionReady(OppPairIn(FerrothornIn(CelebiIn(b))))
  {
    var f := FerrothornIn(CelebiIn(b));
    assert IllusionReady(f);
  }

  /** end_illusion("p2a: Zoroark", "Zoroark, M"): Zoroark and Ferrothorn are active,
      Celebi stays registered but is no longer active. */
  lemma IllusionRevealsZoroark(b: Battle)
    requires IllusionReady(b)
    ensures var r := EndIllusion(b, Position("p2", 0, "Zoroark"), "Zoroark, M");
            && r.Ok?
            && ActivePokemon(r.value) == [Some(Zoroark), Some(Ferrothorn)]
            && Celebi in r.value.own.team && Some(Celebi) !in ActivePokemon(r.value)
  {
  }

  // ---------------------------------------------------------------------------
  // test_one_mon_left_in_double_battles_results_in_available_move_in_the_correct_slot

  const Milotic := Key("p1", "Milotic")
  const Cresselia := Key("p1", "Cresselia")

  lemma NamesMiloticOwnA()
    ensures ParsePosition("p1a: Milotic") == Some(Position("p1", 0, "Milotic"))
  {
    Names("p1a: Milotic", Position("p1", 0, "Milotic"));
  }

  lemma NamesCresseliaB()
    ensures ParsePosition("p1b: Cresselia") == Some(Position("p1", 1, "Cresselia"))
  {
    Names("p1b: Cresselia", Position("p1", 1, "Cresselia"));
  }

  lemma Conditions()
    ensures !IsFaintCondition("394/394") && !IsFaintCondition("444/444")
    ensures !IsFaintCondition("386/394") && IsFaintCondition("0 fnt")
  {
  }

  /** The player events: this client plays p1; the p2 announcement binds nothing. */
  function PlayersAnnounced(b: Battle): (r: Battle)
    requires Fresh(b) && b.username == "username"
    ensures Fresh(r) && r.username == b.username && r.role == Some("p1")
  {
    var b1 := ApplyEvent(b, PlayerEvent("p1", "username")).value;
    ApplyEvent(b1, PlayerEvent("p2", "username2")).value
  }

  /** Milotic is sent out into slot a. */
  function MiloticSent(b: Battle): (r: Battle)
    requires Fresh(b) && b.role == Some("p1")
    ensures WellFormed(r) && r.role == b.role && r.own.team.Keys == {Milotic}
    ensures r.own.slots[0] == Some(Milotic) && r.own.slots[1].None?
  {
    NamesMiloticOwnA();
    Conditions();
    ApplyEvent(b, SwitchEvent("p1a: Milotic", "Milotic, F", "394/394")).value
  }

  /** Then Cresselia into slot b. */
  function CresseliaSent(b: Battle): (r: Battle)
    requires WellFormed(b) && b.role == Some("p1") && b.own.team.Keys == {Milotic}
    requires b.own.slots[0] == Some(Milotic)
    ensures WellFormed(r) && r.role == b.role && r.own.team.Keys == {Milotic, Cresselia}
    ensures r.own.slots[0] == Some(Milotic) && r.own.slots[1] == Some(Cresselia)
  {
    NamesCresseliaB();
    Conditions();
    ApplyEvent(b, SwitchEvent("p1b: Cresselia", "Cresselia, F", "444/444")).value
  }

  /** Milotic in slot a, Cresselia in slot b, nobody else on the own team. */
  predicate Seated(b: Battle) {
    && WellFormed(b) && b.role == Some("p1") && b.own.team.Keys == {Milotic, Cresselia}
    && b.own.slots[0] == Some(Milotic) && b.own.slots[1] == Some(Cresselia)
  }

  lemma NamesVaporeonA()
    ensures ParsePosition("p2a: Vaporeon") == Some(Position("p2", 0, "Vaporeon"))
  {
    Names("p2a: Vaporeon", Position("p2", 0, "Vaporeon"));
  }

  lemma NamesPelipperB()
    ensures ParsePosition("p2b: Pelipper") == Some(Position("p2", 1, "Pelipper"))
  {
    Names("p2b: Pelipper", Position("p2", 1, "Pelipper"));
  }

  /** ["switch", "p2a: Vaporeon", "Vaporeon, F", "100/100"] leaves the own side as it was. */
  function VaporeonSent(b: Battle): (r: Battle)
    requires WellFormed(b) && b.role == Some("p1")
    ensures WellFormed(r) && r.role == b.role && r.own == b.own
  {
    NamesVaporeonA();
    ApplyEvent(b, SwitchEvent("p2a: Vaporeon", "Vaporeon, F", "100/100")).value
  }

  /** ["switch", "p2b: Pelipper", "Pelipper, M", "100/100"] leaves the own side as it was. */
  function PelipperSent(b: Battle): (r: Battle)
    requires WellFormed(b) && b.role == Some("p1")
    ensures WellFormed(r) && r.role == b.role && r.own == b.own
  {
    NamesPelipperB();
    ApplyEvent(b, SwitchEvent("p2b: Pelipper", "Pelipper, M", "100/100")).value
  }

  /** The opponent's switch messages and the turn message leave the own side as it was. */
  function OpponentSwitchesAndTurn(b: Battle): (r: Battle)
    requires WellFormed(b) && b.role == Some("p1")
    ensures WellFormed(r) && r.role == b.role && r.own == b.own && r.turn == 1
  {
    ApplyEvent(PelipperSent(VaporeonSent(b)), TurnEvent(1)).value
  }

  const AllySwitch := RequestMove("allyswitch", 18, SelfOnly, false)
  const Recover := RequestMove("recover", 4, SelfOnly, false)
  const Haze := RequestMove("haze", 46, NoChoice, false)

  /** The request of the test: Cresselia (entry 0) has fainted, Milotic (entry 1) has
      Recover and Haze. */
  function OneLeftRequest(): Request {
    Request(
      [ActiveRequest([AllySwitch], false, false, false, false, false),
       ActiveRequest([Recover, Haze], false, false, false, false, false)],
      [],
      [RequestPokemon(Cresselia, "Cresselia, F", "0 fnt", true, ["allyswitch"]),
       RequestPokemon(Milotic, "Milotic, F", "386/394", true, ["recover", "haze"])])
  }

  lemma OneLeftRequestShape()
    ensures WellFormedRequest(OneLeftRequest())
    ensures LastFor(OneLeftRequest().pokemon, 0) && LastFor(OneLeftRequest().pokemon, 1)
  {
  }

  /** The battle after the request; the slots keep what the switch events put there. */
  function OneLeftRequested(b: Battle): (r: Battle)
    requires Seated(b)
    ensures WellFormed(r) && r.role == Some("p1") && r.own.slots == b.own.slots
    ensures Milotic in r.own.team && Cresselia in r.own.team
  {
    OneLeftRequestShape();
    ParseRequest(b, OneLeftRequest()).value
  }

  /** Slot a's entry has fainted, so it offers no move. */
  lemma OneLeftSlotA(b: Battle)
    requires Seated(b)
    ensures OneLeftRequested(b).options.moves[0] == []
  {
    OneLeftRequestShape();
    Conditions();
    NoMovesForFaintedEntry(b, OneLeftRequest(), 0);
  }

  /** Slot b offers Recover then Haze. */
  lemma OneLeftSlotB(b: Battle)
    requires Seated(b)
    ensures |OneLeftRequested(b).options.moves[1]| == 2
    ensures OneLeftRequested(b).options.moves[1][0].id == "recover"
    ensures OneLeftRequested(b).options.moves[1][1].id == "haze"
  {
    OneLeftRequestShape();
    Conditions();
    MovesOfLiveEntry(b, OneLeftRequest(), 1);
  }

  /** The request marks Cresselia fainted and Milotic active and healthy. */
  lemma OneLeftRecords(b: Battle)
    requires Seated(b)
    ensures OneLeftRequested(b).own.team[Cresselia].fainted
    ensures OneLeftRequested(b).own.team[Milotic].active && !OneLeftRequested(b).own.team[Milotic].fainted
    ensures OneLeftRequested(b).own.team[Milotic].species == "milotic"
  {
    var req := OneLeftRequest();
    OneLeftRequestShape();
    Conditions();
    SpeciesMilotic();
    UpdateTeamLast(b.own.team, req.pokemon, 0);
    UpdateTeamLast(b.own.team, req.pokemon, 1);
  }

  /** ["swap", "p1b: Cresselia", "0"]: the fainted Cresselia moves to slot a, where it
      reads as empty, and Milotic to slot b; the moves offered per slot stay. */
  lemma AllySwitchReplay(b: Battle)
    requires WellFormed(b) && b.role == Some("p1")
    requires b.own.slots[0] == Some(Milotic) && b.own.slots[1] == Some(Cresselia)
    requires Cresselia in b.own.team && b.own.team[Cresselia].fainted
    requires Milotic in b.own.team && b.own.team[Milotic].active && !b.own.team[Milotic].fainted
    ensures ApplyEvent(b, SwapEvent("p1b: Cresselia", "0")).Ok?
    ensures var r := ApplyEvent(b, SwapEvent("p1b: Cresselia", "0")).value;
            && r.options == b.options
            && ActivePokemon(r)[0] == None
            && ActivePokemon(r)[1] == Some(Milotic)
            && r.own.team[Milotic] == b.own.team[Milotic]
  {
    NamesCresseliaB();
  }

  /** The whole replay, from a fresh battle of client "username". */
  lemma OneMonLeft(b: Battle)
    requires Fresh(b) && b.username == "username"
    ensures var s := OneLeftRequested(OpponentSwitchesAndTurn(CresseliaSent(MiloticSent(PlayersAnnounced(b)))));
            var r := ApplyEvent(s, SwapEvent("p1b: Cresselia", "0"));
            && r.Ok?
            && r.value.options.moves[0] == []
            && |r.value.options.moves[1]| == 2
            && r.value.options.moves[1][0].id == "recover" && r.value.options.moves[1][1].id == "haze"
            && ActivePokemon(r.value)[0] == None
            && ActivePokemon(r.value)[1] == Some(Milotic)
            && r.value.own.team[Milotic].species == "milotic"
  {
    var s0 := OpponentSwitchesAndTurn(CresseliaSent(MiloticSent(PlayersAnnounced(b))));
    OneLeftSlotA(s0);
    OneLeftSlotB(s0);
    OneLeftRecords(s0);
    AllySwitchReplay(OneLeftRequested(s0));
  }
}

=== FILE: targeting.dfy ===
/** Showdown target codes in a double battle. A code names a position on the
    field: -1 and -2 the own slots a and b, 1 and 2 the opponent's slots a and b,
    and 0 "no target needed". */
module Targeting {
  import opened Wrappers
  import opened Identifiers
  import opened Creatures
  import opened Battles

  const EmptyTarget: int := 0

  function OwnCode(slot: nat): (c: int)
    requires slot < 2
    ensures c < 0
  {
    -(slot + 1)
  }

  function OppCode(slot: nat): (c: int)
    requires slot < 2
    ensures c > 0
  {
    slot + 1
  }

  predicate Ascending(cs: seq<int>) {
    forall i, j :: 0 <= i < j < |cs| ==> cs[i] < cs[j]
  }

  /** The own slot in which `user` is shown, slot a first. */
  function UserSlot(s: Side, user: Key): (r: Option<nat>)
    requires |s.slots| == 2
    ensures r.Some? ==> r.value < 2 && Visible(s, r.value) == Some(user)
    ensures r.None? <==> !IsVisible(s, user)
  {
    if Visible(s, 0) == Some(user) then Some(0)
    else if Visible(s, 1) == Some(user) then Some(1)
    else None
  }

  /** get_possible_showdown_targets: the codes a move of `user` may be aimed at.
      A move that picks one target may aim at the ally (not when dynamaxed) and at
      each opponent slot, provided the slot shows a creature; any other move takes [0]. */
  function PossibleTargets(b: Battle, move: MoveRef, user: Key, dynamax: bool): (r: Result<seq<int>>)
    requires WellFormed(b)
    ensures r.Ok? <==> IsVisible(b.own, user)
    ensures r.Ok? ==> Ascending(r.value)
    ensures r.Ok? && move.target != AnySingle ==> r.value == [EmptyTarget]
    ensures r.Ok? && move.target == AnySingle ==>
              var ally := 1 - UserSlot(b.own, user).value;
              forall c :: c in r.value <==>
                || (c == OwnCode(ally) && !dynamax && Visible(b.own, ally).Some?)
                || (c == OppCode(0) && Visible(b.opp, 0).Some?)
                || (c == OppCode(1) && Visible(b.opp, 1).Some?)
  {
    match UserSlot(b.own, user)
    case None => Err(UserNotActive(user.name))
    case Some(u) =>
      if move.target != AnySingle then Ok([EmptyTarget])
      else
        var ally := 1 - u;
        var allies := if !dynamax && Visible(b.own, ally).Some? then [OwnCode(ally)] else [];
        var foes := (if Visible(b.opp, 0).Some? then [OppCode(0)] else [])
                    + (if Visible(b.opp, 1).Some? then [OppCode(1)] else []);
        Ok(allies + foes)
  }

  /** to_showdown_target: the code of the position where `target` is shown; 0 for a
      move that takes no chosen target, for no target, and for one not on the field. */
  function ToShowdownTarget(b: Battle, move: MoveRef, target: Option<Key>): (r: int)
    requires WellFormed(b)
    ensures -2 <= r <= 2
    ensures move.target != AnySingle || target.None? ==> r == EmptyTarget
    ensures r < 0 ==> move.target == AnySingle && Visible(b.own, -r - 1) == target
    ensures r > 0 ==> move.target == AnySingle && Visible(b.opp, r - 1) == target
    ensures r == EmptyTarget && move.target == AnySingle && target.Some? ==>
              !IsVisible(b.own, target.value) && !IsVisible(b.opp, target.value)
  {
    if move.target != AnySingle || target.None? then EmptyTarget
    else if Visible(b.own, 0) == target then OwnCode(0)
    else if Visible(b.own, 1) == target then OwnCode(1)
    else if Visible(b.opp, 0) == target then OppCode(0)
    else if Visible(b.opp, 1) == target then OppCode(1)
    else EmptyTarget
  }

  /** The two directions agree: the code of any creature on the field other than the
      user is among the user's possible targets (an ally only when not dynamaxed). */
  lemma TargetCodeIsPossible(b: Battle, move: MoveRef, user: Key, target: Key, dynamax: bool)
    requires WellFormed(b)
    requires IsVisible(b.own, user) && target != user
    requires IsVisible(b.own, target) || IsVisible(b.opp, target)
    requires dynamax ==> !IsVisible(b.own, target)
    ensures PossibleTargets(b, move, user, dynamax).Ok?
    ensures ToShowdownTarget(b, move, Some(target)) in PossibleTargets(b, move, user, dynamax).value
  {
    var code := ToShowdownTarget(b, move, Some(target));
    var u := UserSlot(b.own, user).value;
    if move.target == AnySingle && code < 0 {
      assert -code - 1 == 1 - u;
    }
  }

  /** No creature is shown on both sides: the own side's keys carry the own player's
      label, the opponent's the other one. */
  ghost predicate SidesApart(b: Battle)
    requires WellFormed(b)
  {
    forall k :: IsVisible(b.own, k) ==> !IsVisible(b.opp, k)
  }

  /** The converse: every non-zero possible code names a position, other than the
      user's own, that shows a creature, and it is that creature's code. */
  lemma PossibleTargetsAreShown(b: Battle, move: MoveRef, user: Key, dynamax: bool, c: int)
    requires WellFormed(b) && SidesApart(b)
    requires PossibleTargets(b, move, user, dynamax).Ok?
    requires c in PossibleTargets(b, move, user, dynamax).value && c != EmptyTarget
    ensures move.target == AnySingle
    ensures c < 0 ==> && !dynamax && -c - 1 < 2 && Visible(b.own, -c - 1).Some?
                      && -c - 1 != UserSlot(b.own, user).value
                      && ToShowdownTarget(b, move, Visible(b.own, -c - 1)) == c
    ensures c > 0 ==> && c - 1 < 2 && Visible(b.opp, c - 1).Some?
                      && ToShowdownTarget(b, move, Visible(b.opp, c - 1)) == c
  {
    if c < 0 {
      var t := Visible(b.own, -c - 1);
      assert -c - 1 == 1 ==> Visible(b.own, 0) != t;
    } else {
      var t := Visible(b.opp, c - 1);
      assert !IsVisible(b.own, t.value);
      assert c - 1 == 1 ==> Visible(b.opp, 0) != t;
    }
  }
}

=== FILE: wrappers.dfy ===
/** Failure-compatible wrappers shared by the whole model. */
module Wrappers {

  /** An optional value: a slot that may be empty, a lookup that may miss. */
  datatype Option<+T> = None | Some(value: T)

  /** The errors an operation can report instead of a new state. */
  datatype Error =
    | MalformedIdentifier(ident: string)
    | MalformedRequest
    | UnknownPokemon(key: string)
    | UserNotActive(key: string)
    | EmptySlot(ident: string)

  /** Either a value or one of the errors above. */
  datatype Result<+T> = Ok(value: T) | Err(error: Error)
}
